=== FILE: README.md ===
# Purchase-order back office — Dafny model

A model of the logic inside a small React back office for customers, projects,
suppliers, purchase orders and bills. Everything the application keeps lives in
the page component's state. The logic sits inside the components:

- add / edit / delete handlers on the page's collections;
- the four entity forms, which validate fields, trim text and build the record handed to `onSave`;
- the list views, which join records by foreign key and filter on a case-insensitive search term;
- the status-gated action buttons of the purchase-order dialog and the bills table;
- the two status badges;
- the bill import dialog, which accepts XML files and keeps a list of selected files.

Each source area is one Dafny module:

| module | source |
|---|---|
| `Types` | `src/types/index.ts` |
| `Store` | `src/pages/Index.tsx` |
| `PurchaseOrderForm`, `ProjectForm`, `SupplierForm`, `CustomerForm` | the four `*Form.tsx` components |
| `PurchaseOrderList`, `ProjectList`, `SupplierList`, `CustomerList`, `BillsList` | the `*List.tsx` components |
| `PurchaseOrderDetails` | `src/components/PurchaseOrders/PurchaseOrderDetails.tsx` |
| `BillImport` | `src/components/Bills/BillImportModal.tsx` |
| `StatusBadge`, `BillStatusBadge`, `Badge` | the two badge components |
| `Text`, `Seqs`, `Lookup`, `Validation`, `Options` | the JavaScript primitives and patterns the components share: `trim`, `toLowerCase`, `includes`, `filter`, `find`, `x?.id \|\| fresh` |

Records are immutable datatypes; optional fields are `Option`s. A component's React
state becomes a function argument, and each handler becomes a function from the old
state to the new one. Translated labels are kept as their translation keys. Dates
are integer timestamps. The clock (`Date.now()`, `getFullYear()`) is a parameter.

Three facts about the code shape the model:

- `cigCode` is optional in the shared record (`src/types/index.ts:24`), yet the purchase-order form rejects a blank CIG code as `required` (`src/components/PurchaseOrders/PurchaseOrderForm.tsx:108-109`).
- The purchase-order status union has seven members (`src/types/index.ts:19`), but the badge has branches for only five of them (`src/components/PurchaseOrders/StatusBadge.tsx:17-46`). `waiting_for_approval` and `closed` reach the default branch and are shown raw, in gray (`src/components/PurchaseOrders/StatusBadge.tsx:47-51`).
- The order dialog and the bills table only declare the status-changing callbacks (`src/components/PurchaseOrders/PurchaseOrderDetails.tsx:27-30`, `src/components/Bills/BillsList.tsx:26-29`). No status-transition, timeline or bill-creation logic exists in the components modelled.

Length checks use JavaScript's `.length`, which counts UTF-16 code units. `Text.Utf16Length` models it: a code point above U+FFFF counts two.

## Model

| member | source | states |
|---|---|---|
| Types.PurchaseOrderStatusEnumeration | src/types/index.ts:19 | the order status union has exactly seven members, including `waiting_for_approval` and `closed`, with pairwise distinct strings |
| Types.BillStatusEnumeration | src/types/index.ts:41 | the bill status union has exactly four members with distinct strings |
| Types.TimelineEventKindEnumeration | src/types/index.ts:59-65 | a timeline event kind is one of nine distinct values |
| Text.Trim | src/components/Suppliers/SupplierForm.tsx:52-58 | `trim` never lengthens its input and leaves no whitespace at either end; the result is empty exactly when the input is all whitespace |
| Text.TrimIsInfix | src/components/Suppliers/SupplierForm.tsx:72-73 | the trimmed value is one contiguous piece of the input, and everything removed before and after it is whitespace |
| Text.Utf16Length | src/components/Projects/ProjectForm.tsx:61 | `.length` is at least the number of code points and at most twice that |
| Text.Utf16LengthAppend | src/components/Projects/ProjectForm.tsx:61 | `.length` adds up over concatenation |
| Text.TrimUtf16Length | src/components/PurchaseOrders/PurchaseOrderForm.tsx:110-134 | trimming never increases `.length` |
| Text.AstralCodePointCountsTwice | src/components/Projects/ProjectForm.tsx:61 | appending a code point above U+FFFF to a string of ordinary code points adds one code point but two to `.length` |
| Text.Utf16LengthIsCodePointsIff | src/components/Projects/ProjectForm.tsx:61 | `.length` equals the number of code points exactly when no code point lies above U+FFFF |
| Text.Utf16LengthSplit | src/components/PurchaseOrders/PurchaseOrderForm.tsx:110-134 | cutting a string in two splits its `.length` between the two halves |
| Text.Utf16LengthOfInfix | src/components/PurchaseOrders/PurchaseOrderForm.tsx:110-134 | a piece of a string, plus what precedes it, has no greater `.length` than the whole string |
| Text.TrimDropsLeadingSpace | src/components/PurchaseOrders/PurchaseOrderForm.tsx:110-134 | trimming a string that starts with whitespace and is not all whitespace strictly lowers its `.length` |
| Text.TrimIdempotent | src/components/Suppliers/SupplierForm.tsx:72-73 | a trimmed value is unchanged by trimming again |
| Text.Lower | src/components/Customers/CustomerList.tsx:41-43 | `toLowerCase` keeps the length and lower-cases each character on its own |
| Text.Includes | src/components/Customers/CustomerList.tsx:41-43 | `includes` finds any prefix of the text, and never finds a term longer than the text |
| Text.IncludesIffOccurs | src/components/Customers/CustomerList.tsx:41-43 | the `includes` scan finds `t` exactly when some window of `s` equals `t` |
| Text.EmptyTermMatchesEverything | src/components/Customers/CustomerList.tsx:42 | every field contains the empty search term |
| Text.PadStart | src/components/PurchaseOrders/PurchaseOrderForm.tsx:98 | the padded string has the target width, ends with the input and is padded only with the pad character |
| Text.NatToString | src/components/Projects/ProjectForm.tsx:75 | a non-negative number renders as a non-empty digit string with no leading zero |
| Text.NatToStringWidth | src/components/PurchaseOrders/PurchaseOrderForm.tsx:98 | a number below 10, 100 or 1000 renders in at most one, two or three digits |
| Text.NatToStringRoundTrip | src/components/Projects/ProjectForm.tsx:75 | reading the rendered digits back gives the number |
| Seqs.Filter | src/components/PurchaseOrders/PurchaseOrderList.tsx:60-70 | `filter` keeps exactly the satisfying elements, as an order-preserving subsequence |
| Seqs.FilterCount | src/pages/Index.tsx:75-77 | every value that satisfies the predicate keeps all its copies, and every other value loses all of them |
| Seqs.FilterKeepsAll | src/components/Suppliers/SupplierList.tsx:42-45 | a predicate true of every element returns the input unchanged |
| Seqs.FilterIsIdentityIff | src/pages/Index.tsx:75-77 | filtering drops nothing iff every element satisfies the predicate |
| Seqs.FilterIdempotent | src/pages/Index.tsx:75-77 | filtering twice equals filtering once |
| Seqs.FilterAppend | src/pages/Index.tsx:106-116 | filtering distributes over concatenation |
| Seqs.FirstIndex | src/components/PurchaseOrders/PurchaseOrderList.tsx:48 | the position found satisfies the predicate and no earlier one does; none found means no element satisfies it |
| Seqs.Find | src/components/PurchaseOrders/PurchaseOrderList.tsx:48 | `find` returns a member that satisfies the predicate, and nothing exactly when no member does |
| Seqs.FindReturnsFirst | src/components/PurchaseOrders/PurchaseOrderList.tsx:48 | `find` returns the earliest satisfying element |
| Lookup.CustomerById | src/components/Projects/ProjectList.tsx:51 | the customer found has the key as id; nothing is found for an absent key or an unknown id |
| Lookup.ProjectById | src/components/PurchaseOrders/PurchaseOrderList.tsx:54 | the project found has the key as id; nothing is found for an absent key or an unknown id |
| Lookup.SupplierById | src/components/PurchaseOrders/PurchaseOrderList.tsx:48 | the supplier found has the requested id; nothing exactly when no supplier has it |
| Lookup.PurchaseOrderById | src/components/Bills/BillsList.tsx:49 | the order found has the requested id; nothing exactly when no order has it |
| Lookup.SupplierByIdPicksFirst | src/components/PurchaseOrders/PurchaseOrderList.tsx:48 | with duplicate ids the earliest supplier wins |
| Store.Append | src/pages/Index.tsx:67-69 | add keeps every earlier record in place and puts the new one last |
| Store.AppendAddsOneOccurrence | src/pages/Index.tsx:106-108 | add does no uniqueness check: an existing id then occurs once more |
| Store.ReplaceById | src/pages/Index.tsx:110-112 | edit keeps length and positions; every record with the updated id becomes the update, all others are untouched |
| Store.ReplaceKeepsIds | src/pages/Index.tsx:71-73 | edit never changes the id found at any position |
| Store.ReplaceAbsentIsIdentity | src/pages/Index.tsx:71-73 | editing with an id no record has changes nothing |
| Store.ReplaceIdempotent | src/pages/Index.tsx:110-112 | editing twice with the same record equals editing once |
| Store.RemoveById | src/pages/Index.tsx:114-116 | delete leaves no record with that id, keeps every other record as often as it occurred (duplicates included), and preserves relative order |
| Store.RemoveAbsentIsIdentity | src/pages/Index.tsx:75-77 | deleting an absent id changes nothing |
| Store.RemoveIdempotent | src/pages/Index.tsx:114-116 | deleting twice equals deleting once |
| Store.RemoveAfterAppend | src/pages/Index.tsx:106-116 | deleting the id just added removes the new record and any older one with that id |
| Store.Step | src/pages/Index.tsx:67-116 | each handler changes only its own collection; a delete leaves no record with the deleted id |
| Store.DeleteDoesNotCascade | src/pages/Index.tsx:75-103 | deleting a customer or supplier leaves projects and purchase orders unchanged |
| Store.InitialStoreIsConsistent | src/pages/Index.tsx:43-64 | the seed data has a 15-character CUP, a 10-character CIG, and an order whose supplier exists |
| Validation.KeepOrNewId | src/components/Customers/CustomerForm.tsx:58 | `existing?.id \|\| fresh` keeps a non-empty existing id and otherwise uses the generated one |
| PurchaseOrderForm.FormatIdShape | src/components/PurchaseOrders/PurchaseOrderForm.tsx:98 | an id starts with `ACQ/`; for a non-negative year the digits after it read back as the year; below 1000 the sequence number ends the id after a `/`, padded to three digits; a negative year puts `-` after the prefix |
| PurchaseOrderForm.GeneratePOId | src/components/PurchaseOrders/PurchaseOrderForm.tsx:94-99 | the generated id is `ACQ/`, then the year as JavaScript renders it (no leading zero, `-` before a negative year; the digits read back as the year), then `/001` |
| PurchaseOrderForm.Validate | src/components/PurchaseOrders/PurchaseOrderForm.tsx:101-124 | name error iff the trimmed name is empty; CIG `required` iff the trimmed code is empty, else a length error iff the untrimmed code is not 10 UTF-16 code units long; supplier error iff no supplier; file error iff creating without a file |
| PurchaseOrderForm.ValidIff | src/components/PurchaseOrders/PurchaseOrderForm.tsx:101-124 | the form is valid exactly when the name and CIG are non-blank, the CIG is 10 code units, a supplier is chosen and, on create, a file is attached |
| PurchaseOrderForm.Submit | src/components/PurchaseOrders/PurchaseOrderForm.tsx:126-142 | `onSave` only without errors; the saved name is trimmed and non-empty; the saved CIG is the trimmed input, non-empty and at most 10 code units; an empty project becomes absent; edit keeps a non-empty id, create uses the generated id |
| PurchaseOrderForm.SignedFileOnlyOnCreate | src/components/PurchaseOrders/PurchaseOrderForm.tsx:118-120 | a signed file is demanded when creating and never when editing |
| PurchaseOrderForm.LengthCheckedBeforeTrim | src/components/PurchaseOrders/PurchaseOrderForm.tsx:108-134 | the length test reads the untrimmed code: any code of 10 code units that starts with whitespace and is not all whitespace passes, and the code saved is shorter than 10 code units |
| PurchaseOrderForm.AstralCigRejected | src/components/PurchaseOrders/PurchaseOrderForm.tsx:110-111 | nine digits followed by an emoji are ten code points but eleven code units, and get the CIG length error |
| PurchaseOrderForm.ProjectOption | src/components/PurchaseOrders/PurchaseOrderForm.tsx:144-148 | the picker entry is `<project id> - ` followed by the found customer's name, or `N/A` |
| ProjectForm.Validate | src/components/Projects/ProjectForm.tsx:58-67 | the only possible error is on the CUP code: valid iff it is empty or exactly 15 UTF-16 code units long |
| ProjectForm.CustomerNeverValidated | src/components/Projects/ProjectForm.tsx:58-67 | the customer selection never affects validation |
| ProjectForm.AstralCupRejected | src/components/Projects/ProjectForm.tsx:61-63 | fourteen digits followed by an emoji get the CUP length error, and the form does not save |
| ProjectForm.Submit | src/components/Projects/ProjectForm.tsx:69-82 | a project is saved iff its CUP is empty or 15 code units long; a saved project has no CUP or one of 15 code units; an empty customer or CUP is stored as absent; edit keeps a non-empty id, create uses the clock |
| SupplierForm.Validate | src/components/Suppliers/SupplierForm.tsx:49-62 | name error iff the trimmed name is empty, VAT error iff the trimmed VAT number is empty, no errors iff both are filled; no format check |
| SupplierForm.Submit | src/components/Suppliers/SupplierForm.tsx:64-78 | read-only never saves; otherwise it saves iff both fields are non-blank, trims both, and keeps a non-empty id on edit |
| CustomerForm.Validate | src/components/Customers/CustomerForm.tsx:41-50 | valid iff the trimmed name is non-empty |
| CustomerForm.Submit | src/components/Customers/CustomerForm.tsx:52-64 | an invalid form never saves; the saved name is trimmed and non-empty; edit keeps a non-empty id |
| PurchaseOrderList.SupplierName | src/components/PurchaseOrders/PurchaseOrderList.tsx:47-50 | the first supplier with the id gives its name, or `-` when that name is empty; `-` when no supplier has the id; never empty |
| PurchaseOrderList.ProjectDisplay | src/components/PurchaseOrders/PurchaseOrderList.tsx:52-58 | `-` iff the project id is absent, empty or unknown; otherwise `<id> - <customer name or N/A>` |
| PurchaseOrderList.FilterOrders | src/components/PurchaseOrders/PurchaseOrderList.tsx:60-70 | the result is an order-preserving subsequence; an order is kept iff id, name, CIG, supplier name or project display contains the term, ignoring case; a kept order keeps every copy, a dropped one none |
| PurchaseOrderList.EmptySearchKeepsAll | src/components/PurchaseOrders/PurchaseOrderList.tsx:64 | an empty term keeps every order in order |
| PurchaseOrderList.AbsentCigNeverMatches | src/components/PurchaseOrders/PurchaseOrderList.tsx:66 | an absent CIG code never contributes a match |
| PurchaseOrderList.SaveAction | src/components/PurchaseOrders/PurchaseOrderList.tsx:82-88 | save routes to edit iff an order is being edited, otherwise to add, passing the record on |
| ProjectList.CustomerName | src/components/Projects/ProjectList.tsx:49-53 | `-` for an absent, empty or unknown customer id; otherwise the first customer with that id gives its name, or `-` when that name is empty |
| ProjectList.FilterProjects | src/components/Projects/ProjectList.tsx:55-62 | order-preserving subsequence; kept iff id, customer name or CUP code contains the term; a kept project keeps every copy, a dropped one none |
| ProjectList.EmptySearchKeepsAll | src/components/Projects/ProjectList.tsx:58 | an empty term keeps every project |
| ProjectList.AbsentCupNeverMatches | src/components/Projects/ProjectList.tsx:60 | an absent CUP code never contributes a match |
| ProjectList.DeletedCustomerShowsPlaceholder | src/components/Projects/ProjectList.tsx:49-53 | after its customer is deleted, a project stays and shows `-` for its customer |
| ProjectList.SaveAction | src/components/Projects/ProjectList.tsx:74-80 | save routes to edit iff a project is being edited |
| SupplierList.FilterSuppliers | src/components/Suppliers/SupplierList.tsx:42-45 | order-preserving subsequence; kept iff name or VAT number contains the term, ignoring case; a kept supplier keeps every copy, a dropped one none |
| SupplierList.IdNeverSearched | src/components/Suppliers/SupplierList.tsx:42-45 | the supplier id does not affect matching |
| SupplierList.EmptySearchKeepsAll | src/components/Suppliers/SupplierList.tsx:43 | an empty term keeps every supplier |
| SupplierList.SaveAction | src/components/Suppliers/SupplierList.tsx:57-63 | save routes to edit iff a supplier is being edited |
| CustomerList.FilterCustomers | src/components/Customers/CustomerList.tsx:41-43 | order-preserving subsequence; kept iff the name contains the term, ignoring case; a kept customer keeps every copy, a dropped one none |
| CustomerList.IdNeverSearched | src/components/Customers/CustomerList.tsx:41-43 | the customer id does not affect matching |
| CustomerList.EmptySearchKeepsAll | src/components/Customers/CustomerList.tsx:42 | an empty term keeps every customer |
| CustomerList.SaveAction | src/components/Customers/CustomerList.tsx:55-61 | save routes to edit iff a customer is being edited |
| BillsList.InfoOf | src/components/Bills/BillsList.tsx:48-61 | an unknown order gives `-` for all three names. Otherwise it gives the order's name; the name of the first supplier with the order's supplier id (`-` if none or empty); and, when the order's project is found, the name of the project's customer (`-` if none or empty), else `-` |
| BillsList.FilterBills | src/components/Bills/BillsList.tsx:63-76 | order-preserving subsequence; a bill is kept iff it passes both the search and the status test; a kept bill keeps every copy, a dropped one none |
| BillsList.StatusFilterSemantics | src/components/Bills/BillsList.tsx:73 | `all` admits every bill; a status string admits exactly the bills with that status |
| BillsList.UnknownStatusFilterAdmitsNone | src/components/Bills/BillsList.tsx:73 | any other filter value admits no bill |
| BillsList.DefaultFilterKeepsAll | src/components/Bills/BillsList.tsx:63-76 | an empty term with `all` returns the whole list in order |
| BillsList.AbsentBillNumberNeverMatches | src/components/Bills/BillsList.tsx:68 | an absent bill number never contributes a match |
| BillsList.Actions | src/components/Bills/BillsList.tsx:169-198 | approve and reject iff `needs_approval`, in that order; pay iff `approved`; none for paid or rejected bills |
| PurchaseOrderDetails.RelatedOf | src/components/PurchaseOrders/PurchaseOrderDetails.tsx:49-51 | supplier and project are joined by id; a customer is present only when the project was found, and it is that project's customer |
| PurchaseOrderDetails.TotalBillsAmount | src/components/PurchaseOrders/PurchaseOrderDetails.tsx:72-74 | the left-to-right reduce equals the sum of amounts with absent ones as 0; an empty list gives 0 |
| PurchaseOrderDetails.AllAbsentSumsToZero | src/components/PurchaseOrders/PurchaseOrderDetails.tsx:73 | bills without amounts total 0 |
| PurchaseOrderDetails.ActionButtons | src/components/PurchaseOrders/PurchaseOrderDetails.tsx:76-128 | approve/reject iff `waiting_for_approval`, assign iff `in_progress`, close iff `assigned` or `paid`; at most two buttons; approve never appears with assign or close |
| PurchaseOrderDetails.ButtonsPerStatus | src/components/PurchaseOrders/PurchaseOrderDetails.tsx:76-128 | the exact button row for each of the seven statuses |
| BillImport.IsXmlFile | src/components/Bills/BillImportModal.tsx:41-45 | a file is accepted iff its type is `text/xml` or `application/xml`, or its name ends in `.`, then `x`, `m`, `l` in either case |
| BillImport.XmlOnly | src/components/Bills/BillImportModal.tsx:41-45 | a file is kept iff its type is `text/xml` or `application/xml` or its lower-cased name ends in `.xml`; order is preserved, and two identical accepted files both stay |
| BillImport.HandleDrop | src/components/Bills/BillImportModal.tsx:35-48 | the earlier selection is kept and the accepted dropped files follow it |
| BillImport.HandleFileSelect | src/components/Bills/BillImportModal.tsx:50-60 | the same append for picked files; no file list changes nothing |
| BillImport.DropAndPickAgree | src/components/Bills/BillImportModal.tsx:41-57 | drop and picker apply the identical acceptance rule |
| BillImport.RemoveFile | src/components/Bills/BillImportModal.tsx:62-64 | removing an in-range position shortens the selection by one, and every later entry moves up one place; an out-of-range index changes nothing |
| BillImport.RemoveFileSemantics | src/components/Bills/BillImportModal.tsx:62-64 | removing deletes exactly position i and keeps the rest in order; an out-of-range i changes nothing |
| BillImport.HandleImport | src/components/Bills/BillImportModal.tsx:66-72 | an empty selection does nothing; otherwise the whole selection is handed over, cleared, and the dialog closes |
| BillImport.HandleClose | src/components/Bills/BillImportModal.tsx:74-77 | closing always clears the selection and imports nothing |
| BillImport.XmlAndPdfScenario | src/components/Bills/BillImportModal.tsx:41-47 | dropping `a.xml` with `b.pdf` selects only `a.xml` |
| Badge.Fallback | src/components/PurchaseOrders/StatusBadge.tsx:47-51 | an unknown status is shown verbatim with the gray class |
| StatusBadge.StatusConfig | src/components/PurchaseOrders/StatusBadge.tsx:15-53 | translated iff the string is one of the six known ones; every other input gets the raw string in gray |
| StatusBadge.Colours | src/components/PurchaseOrders/StatusBadge.tsx:17-46 | the label key and colour of each branch: `draft` gray, `sent_for_approval` and `in_progress` yellow, `assigned` green, `paid` blue, `rejected` red |
| StatusBadge.KnownStatusesHaveDistinctKeys | src/components/PurchaseOrders/StatusBadge.tsx:17-46 | the six known strings have pairwise distinct label keys |
| StatusBadge.WaitingAndClosedFallBack | src/components/PurchaseOrders/StatusBadge.tsx:47-51 | `waiting_for_approval` and `closed` are valid order statuses but fall to the raw gray branch |
| StatusBadge.OtherOrderStatusesTranslated | src/components/PurchaseOrders/StatusBadge.tsx:17-46 | the other five order statuses get translated labels |
| StatusBadge.SharedColours | src/components/PurchaseOrders/StatusBadge.tsx:17-51 | `sent_for_approval` and `in_progress` share yellow; `draft` shares gray with the fallback |
| BillStatusBadge.StatusConfig | src/components/Bills/BillStatusBadge.tsx:14-42 | translated iff the string names a bill status; the raw value in gray otherwise |
| BillStatusBadge.Colours | src/components/Bills/BillStatusBadge.tsx:16-35 | the label key and colour of each status: `needsApproval` orange, `approved` green, `paid` blue, `rejected` red |
| BillStatusBadge.KeysDistinct | src/components/Bills/BillStatusBadge.tsx:16-35 | distinct bill statuses get distinct label keys |
| BillStatusBadge.EveryStatusTranslated | src/components/Bills/BillStatusBadge.tsx:14-41 | every bill status has its own branch, so the fallback never applies to a well-typed bill |
| BillStatusBadge.ColoursDistinct | src/components/Bills/BillStatusBadge.tsx:16-35 | distinct bill statuses get distinct classes |

## Left out

- Purchase-order and bill lifecycle transitions (approve, reject, assign, close, pay), bill creation on import, and timeline reconstruction: the components only declare the callbacks (`src/components/PurchaseOrders/PurchaseOrderDetails.tsx:27-30`, `src/components/Bills/BillsList.tsx:26-29`), and their implementations are not part of this model.
- JSX rendering and the dialog, table and card shells. This includes display-only strings such as `cigCode || '-'` and the dialog's project line, drag highlighting (`handleDrag`), `handleSupplierClick` and the React hooks. The forms' `useEffect` initialisation from an edited record is also left out: form state is an input record.
- `formatDate`, `formatAmount` and `formatFileSize`: locale formatting and floating point.
- The translation catalogue, the signed-file drop zone (a third-party widget), the sidebar, the dashboard counts and the bootstrap file: none of them contains logic.
- Text.Lower: folds only ASCII `A`-`Z`; JavaScript's `toLowerCase` also folds other scripts.
- PurchaseOrderDetails.TotalBillsAmount: amounts are integers (for example cents), not JavaScript floats, so rounding and `NaN` are not modelled.
- PurchaseOrderForm.Submit: the record the form hands to `onSave` carries only id, name, CIG, supplier, project and signed file (`src/components/PurchaseOrders/PurchaseOrderForm.tsx:131-138`). The list passes it on as a full purchase order, and `Store.Step` assumes a full one. The model therefore does not say what status a form-created order has. It also does not say what an edit does: the edit handler replaces the stored order wholesale (`src/pages/Index.tsx:110-111`), so editing an order through the form drops its status, explanation, contracts-office letter and every approval, rejection, assignment and closing stamp.
- `src/pages/Index.tsx` declares its own purchase-order status union (with `sent_for_approval` and without `waiting_for_approval`/`closed`). The store uses the union of `src/types/index.ts`.
- The clock: `Date.now()` and `getFullYear()` are parameters of the submit functions.

=== FILE: badge.dfy ===
/** What a status badge displays: a label and a Tailwind class string. */
module Badge {

  /** The label is either a translation key passed to `t(...)` or the raw status string itself. */
  datatype Label = Translated(key: string) | Raw(value: string)

  datatype BadgeConfig = BadgeConfig(text: Label, className: string)

  const Gray := "bg-gray-500 hover:bg-gray-600 text-white"
  const Yellow := "bg-yellow-500 hover:bg-yellow-600 text-white"
  const Green := "bg-green-500 hover:bg-green-600 text-white"
  const Blue := "bg-blue-500 hover:bg-blue-600 text-white"
  const Red := "bg-red-500 hover:bg-red-600 text-white"
  const Orange := "bg-orange-500 hover:bg-orange-600 text-white"

  /** The fallback of both badges: show the value verbatim, in gray. */
  function Fallback(status: string): (c: BadgeConfig)
    ensures c.text == Raw(status) && c.className == Gray
  {
    BadgeConfig(Raw(status), Gray)
  }
}

=== FILE: bill_import.dfy ===
/**
 * The bill import dialog (`src/components/Bills/BillImportModal.tsx`): which files
 * are accepted, how the selection list grows and shrinks, and what import and close do.
 */
module BillImport {
  import opened Options
  import opened Seqs
  import opened Text
  import opened Types

  /** The acceptance rule shared by drop and picker: an XML MIME type or a `.xml` name, any case. */
  predicate IsXmlFile(f: File)
    ensures IsXmlFile(f) <==>
              || f.mimeType == "text/xml"
              || f.mimeType == "application/xml"
              || (&& |f.name| >= 4
                  && f.name[|f.name| - 4] == '.'
                  && LowerChar(f.name[|f.name| - 3]) == 'x'
                  && LowerChar(f.name[|f.name| - 2]) == 'm'
                  && LowerChar(f.name[|f.name| - 1]) == 'l')
  {
    var lower := Lower(f.name);
    assert |lower| >= 4 ==> lower[|lower| - 4..] == [lower[|lower| - 4], lower[|lower| - 3], lower[|lower| - 2], lower[|lower| - 1]];
    f.mimeType == "text/xml" || f.mimeType == "application/xml" || EndsWith(lower, ".xml")
  }

  /** The accepted part of a batch, in batch order. */
  function XmlOnly(files: seq<File>): (r: seq<File>)
    ensures SubsequenceOf(r, files)
    ensures forall k :: 0 <= k < |r| ==> IsXmlFile(r[k])
    ensures forall k :: 0 <= k < |files| && IsXmlFile(files[k]) ==> files[k] in r
    ensures forall x :: multiset(r)[x] == if IsXmlFile(x) then multiset(files)[x] else 0
  {
    assert forall x :: multiset(Filter(files, IsXmlFile))[x] == if IsXmlFile(x) then multiset(files)[x] else 0 by {
      forall x {
        FilterCount(files, IsXmlFile, x);
      }
    }
    Filter(files, IsXmlFile)
  }

  /** `handleDrop`: accepted files go after the current selection; the rest are dropped silently. */
  function HandleDrop(selection: seq<File>, dropped: seq<File>): (r: seq<File>)
    ensures |r| >= |selection| && r[..|selection|] == selection
    ensures r[|selection|..] == XmlOnly(dropped)
  {
    selection + XmlOnly(dropped)
  }

  /** `handleFileSelect`: as drop, but a missing file list changes nothing. */
  function HandleFileSelect(selection: seq<File>, picked: Option<seq<File>>): (r: seq<File>)
    ensures picked.None? ==> r == selection
    ensures picked.Some? ==> |r| >= |selection| && r[..|selection|] == selection && r[|selection|..] == XmlOnly(picked.value)
  {
    if picked.None? then selection else selection + XmlOnly(picked.value)
  }

  /** Dropping and picking the same files select the same files. */
  lemma DropAndPickAgree(selection: seq<File>, files: seq<File>)
    ensures HandleDrop(selection, files) == HandleFileSelect(selection, Some(files))
  {
  }

  /** `files.filter((_, i) => i !== index)`, walking the list with the running position `pos`. */
  function WithoutPosition(files: seq<File>, index: int, pos: int): seq<File>
    decreases |files|
  {
    if files == [] then []
    else (if pos != index then [files[0]] else []) + WithoutPosition(files[1..], index, pos + 1)
  }

  /** `removeFile`: the selection without the entry at `index`. */
  function RemoveFile(selection: seq<File>, index: int): (r: seq<File>)
    ensures |r| == if 0 <= index < |selection| then |selection| - 1 else |selection|
    ensures forall k :: 0 <= k < |r| ==> r[k] == selection[if 0 <= index <= k then k + 1 else k]
  {
    WithoutPositionSplices(selection, index, 0);
    WithoutPosition(selection, index, 0)
  }

  lemma {:induction false} WithoutPositionSplices(files: seq<File>, index: int, pos: int)
    ensures pos <= index < pos + |files| ==>
              WithoutPosition(files, index, pos) == files[..index - pos] + files[index - pos + 1..]
    ensures !(pos <= index < pos + |files|) ==> WithoutPosition(files, index, pos) == files
    decreases |files|
  {
    if files != [] {
      var rest := files[1..];
      WithoutPositionSplices(rest, index, pos + 1);
      if pos == index {
        assert WithoutPosition(files, index, pos) == WithoutPosition(rest, index, pos + 1);
        assert files[..0] == [];
      } else {
        assert WithoutPosition(files, index, pos) == [files[0]] + WithoutPosition(rest, index, pos + 1);
        if pos < index < pos + |files| {
          SpliceOfTail(files, index - pos);
        } else {
          assert [files[0]] + rest == files;
        }
      }
    }
  }

  /** Cutting position `i > 0` out of a list is keeping its head and cutting position `i - 1` out of its tail. */
  lemma SpliceOfTail(files: seq<File>, i: nat)
    requires 0 < i < |files|
    ensures files[..i] + files[i + 1..] == [files[0]] + (files[1..][..i - 1] + files[1..][i..])
  {
    assert files[..i] == [files[0]] + files[1..][..i - 1];
    assert files[i + 1..] == files[1..][i..];
  }

  /** Removing deletes exactly position `index`, keeping the rest in order; an out-of-range index is a no-op. */
  lemma RemoveFileSemantics(selection: seq<File>, index: int)
    ensures 0 <= index < |selection| ==> RemoveFile(selection, index) == selection[..index] + selection[index + 1..]
    ensures 0 <= index < |selection| ==> |RemoveFile(selection, index)| == |selection| - 1
    ensures !(0 <= index < |selection|) ==> RemoveFile(selection, index) == selection
  {
    WithoutPositionSplices(selection, index, 0);
  }

  /** The dialog after a button: its selection, what `onImport` received (if called), whether `onClose` ran. */
  datatype Outcome = Outcome(selection: seq<File>, imported: Option<seq<File>>, closed: bool)

  /** `handleImport`: with an empty selection nothing happens; otherwise everything is handed over and cleared. */
  function HandleImport(selection: seq<File>): (r: Outcome)
    ensures selection == [] ==> r == Outcome(selection, None, false)
    ensures selection != [] ==> r.imported == Some(selection) && r.selection == [] && r.closed
  {
    if |selection| > 0 then Outcome([], Some(selection), true) else Outcome(selection, None, false)
  }

  /** `handleClose`: the selection is always cleared and nothing is imported. */
  function HandleClose(selection: seq<File>): (r: Outcome)
    ensures r.selection == [] && r.imported.None? && r.closed
  {
    Outcome([], None, true)
  }

  /** Dropping `a.xml` with `b.pdf` selects `a.xml` alone. */
  lemma XmlAndPdfScenario()
    ensures HandleDrop([], [File("a.xml", ""), File("b.pdf", "application/pdf")]) == [File("a.xml", "")]
  {
    var a := File("a.xml", "");
    var b := File("b.pdf", "application/pdf");
    assert IsXmlFile(a);
    assert !IsXmlFile(b);
    assert [a, b][1..] == [b];
  }
}

=== FILE: bill_status_badge.dfy ===
/** The bill badge (`src/components/Bills/BillStatusBadge.tsx`): one colour per bill status. */
module BillStatusBadge {
  import opened Badge
  import opened Types

  /** `getStatusConfig`: a translated label and its colour for the four statuses, the raw value in gray otherwise. */
  function StatusConfig(status: string): (c: BadgeConfig)
    ensures c.text.Translated? <==> exists st: BillStatus :: st.Name() == status
    ensures c.text.Raw? ==> c == Fallback(status)
  {
    match status
    case "needs_approval" =>
      assert NeedsApproval.Name() == status;
      BadgeConfig(Translated("needsApproval"), Orange)
    case "approved" =>
      assert Approved.Name() == status;
      BadgeConfig(Translated("approved"), Green)
    case "paid" =>
      assert BillStatus.Paid.Name() == status;
      BadgeConfig(Translated("paid"), Blue)
    case "rejected" =>
      assert BillStatus.Rejected.Name() == status;
      BadgeConfig(Translated("rejected"), Red)
    case _ =>
      assert forall st: BillStatus :: st.Name() != status;
      Fallback(status)
  }

  /** Label key and colour of each bill status. */
  lemma Colours()
    ensures StatusConfig(NeedsApproval.Name()) == BadgeConfig(Translated("needsApproval"), Orange)
    ensures StatusConfig(Approved.Name()) == BadgeConfig(Translated("approved"), Green)
    ensures StatusConfig(BillStatus.Paid.Name()) == BadgeConfig(Translated("paid"), Blue)
    ensures StatusConfig(BillStatus.Rejected.Name()) == BadgeConfig(Translated("rejected"), Red)
  {
  }

  /** Distinct statuses get distinct label keys. */
  lemma KeysDistinct(a: BillStatus, b: BillStatus)
    requires a != b
    ensures StatusConfig(a.Name()).text != StatusConfig(b.Name()).text
  {
  }

  /** Every bill status has its own branch, so the fallback never shows for a well-typed bill. */
  lemma EveryStatusTranslated(st: BillStatus)
    ensures StatusConfig(st.Name()).text.Translated?
  {
  }

  /** Distinct statuses get distinct colours. */
  lemma ColoursDistinct(a: BillStatus, b: BillStatus)
    requires a != b
    ensures StatusConfig(a.Name()).className != StatusConfig(b.Name()).className
  {
  }
}

=== FILE: bills_list.dfy ===
/**
 * The bills table (`src/components/Bills/BillsList.tsx`): the purchase-order join,
 * the search-and-status filter and the per-status action buttons.
 */
module BillsList {
  import opened Options
  import opened Seqs
  import opened Text
  import opened Types
  import opened Lookup

  /** What `getPurchaseOrderInfo` returns for a bill's purchase-order id. */
  datatype PurchaseOrderInfo = PurchaseOrderInfo(poName: string, supplierName: string, customerName: string)

  /** `getPurchaseOrderInfo`: the order's name with its supplier and customer, `-` standing for anything missing. */
  function InfoOf(poId: string, orders: seq<PurchaseOrder>, suppliers: seq<Supplier>, projects: seq<Project>, customers: seq<Customer>): (info: PurchaseOrderInfo)
    ensures PurchaseOrderById(orders, poId).None? ==> info == PurchaseOrderInfo("-", "-", "-")
    ensures PurchaseOrderById(orders, poId).Some? ==> info.poName == PurchaseOrderById(orders, poId).value.name
    ensures info.supplierName != [] && info.customerName != []
    ensures PurchaseOrderById(orders, poId).Some? ==>
              var supplier := SupplierById(suppliers, PurchaseOrderById(orders, poId).value.supplierId);
              && (supplier.None? || supplier.value.name == [] ==> info.supplierName == "-")
              && (supplier.Some? && supplier.value.name != [] ==> info.supplierName == supplier.value.name)
    ensures PurchaseOrderById(orders, poId).Some? ==>
              var project := ProjectById(projects, PurchaseOrderById(orders, poId).value.projectId);
              && (project.None? ==> info.customerName == "-")
              && (project.Some? ==>
                    var customer := CustomerById(customers, project.value.customerId);
                    && (customer.None? || customer.value.name == [] ==> info.customerName == "-")
                    && (customer.Some? && customer.value.name != [] ==> info.customerName == customer.value.name))
    ensures info.supplierName != "-" ==> exists k :: 0 <= k < |suppliers| && suppliers[k].name == info.supplierName
    ensures info.customerName != "-" ==>
              && PurchaseOrderById(orders, poId).Some?
              && ProjectById(projects, PurchaseOrderById(orders, poId).value.projectId).Some?
              && exists k :: 0 <= k < |customers| && customers[k].name == info.customerName
  {
    var po := PurchaseOrderById(orders, poId);
    if po.None? then PurchaseOrderInfo("-", "-", "-")
    else
      var supplier := SupplierById(suppliers, po.value.supplierId);
      var project := ProjectById(projects, po.value.projectId);
      var customer := if project.Some? then CustomerById(customers, project.value.customerId) else None;
      PurchaseOrderInfo(
        po.value.name,
        if supplier.Some? && supplier.value.name != [] then supplier.value.name else "-",
        if customer.Some? && customer.value.name != [] then customer.value.name else "-")
  }

  /** The search half of `filteredBills`: bill id, file name, bill number, order name or supplier name. */
  predicate MatchesSearch(bill: Bill, term: string, orders: seq<PurchaseOrder>, suppliers: seq<Supplier>, projects: seq<Project>, customers: seq<Customer>) {
    var info := InfoOf(bill.purchaseOrderId, orders, suppliers, projects, customers);
    || MatchesIgnoringCase(bill.id, term)
    || MatchesIgnoringCase(bill.fileName, term)
    || (bill.billNumber.Some? && MatchesIgnoringCase(bill.billNumber.value, term))
    || MatchesIgnoringCase(info.poName, term)
    || MatchesIgnoringCase(info.supplierName, term)
  }

  /** The status half: the select's value is `all` or a status string compared for equality. */
  predicate MatchesStatus(bill: Bill, statusFilter: string) {
    statusFilter == "all" || bill.status.Name() == statusFilter
  }

  /** `filteredBills`: the bills passing both halves, in table order. */
  function FilterBills(bills: seq<Bill>, term: string, statusFilter: string, orders: seq<PurchaseOrder>, suppliers: seq<Supplier>, projects: seq<Project>, customers: seq<Customer>): (r: seq<Bill>)
    ensures SubsequenceOf(r, bills)
    ensures forall k :: 0 <= k < |r| ==> MatchesSearch(r[k], term, orders, suppliers, projects, customers) && MatchesStatus(r[k], statusFilter)
    ensures forall k :: 0 <= k < |bills| && MatchesSearch(bills[k], term, orders, suppliers, projects, customers) && MatchesStatus(bills[k], statusFilter) ==> bills[k] in r
    ensures forall x :: multiset(r)[x] == if MatchesSearch(x, term, orders, suppliers, projects, customers) && MatchesStatus(x, statusFilter) then multiset(bills)[x] else 0
  {
    var keep := (b: Bill) => MatchesSearch(b, term, orders, suppliers, projects, customers) && MatchesStatus(b, statusFilter);
    assert forall x :: multiset(Filter(bills, keep))[x] == if MatchesSearch(x, term, orders, suppliers, projects, customers) && MatchesStatus(x, statusFilter) then multiset(bills)[x] else 0 by {
      forall x {
        FilterCount(bills, keep, x);
      }
    }
    Filter(bills, keep)
  }

  /** `all` admits every bill; a status string admits exactly the bills in that status. */
  lemma StatusFilterSemantics(bill: Bill, st: BillStatus)
    ensures MatchesStatus(bill, "all")
    ensures MatchesStatus(bill, st.Name()) <==> bill.status == st
  {
  }

  /** A filter value that is neither `all` nor a status string admits no bill. */
  lemma UnknownStatusFilterAdmitsNone(bill: Bill, statusFilter: string)
    requires statusFilter != "all"
    requires forall st: BillStatus :: st.Name() != statusFilter
    ensures !MatchesStatus(bill, statusFilter)
  {
  }

  /** An empty search with status `all` shows the whole list, in order. */
  lemma DefaultFilterKeepsAll(bills: seq<Bill>, orders: seq<PurchaseOrder>, suppliers: seq<Supplier>, projects: seq<Project>, customers: seq<Customer>)
    ensures FilterBills(bills, [], "all", orders, suppliers, projects, customers) == bills
  {
    var p := (b: Bill) => MatchesSearch(b, [], orders, suppliers, projects, customers) && MatchesStatus(b, "all");
    forall k | 0 <= k < |bills|
      ensures p(bills[k])
    {
      EmptyTermMatchesEverything(bills[k].id);
    }
    FilterKeepsAll(bills, p);
  }

  /** A bill without a bill number is found only through its other four columns. */
  lemma AbsentBillNumberNeverMatches(bill: Bill, term: string, orders: seq<PurchaseOrder>, suppliers: seq<Supplier>, projects: seq<Project>, customers: seq<Customer>)
    requires bill.billNumber.None?
    ensures MatchesSearch(bill, term, orders, suppliers, projects, customers) <==>
              var info := InfoOf(bill.purchaseOrderId, orders, suppliers, projects, customers);
              || MatchesIgnoringCase(bill.id, term)
              || MatchesIgnoringCase(bill.fileName, term)
              || MatchesIgnoringCase(info.poName, term)
              || MatchesIgnoringCase(info.supplierName, term)
  {
  }

  /** The buttons of a table row. */
  datatype BillAction = ApproveBill | RejectBill | PayBill

  /** The action cell: approve and reject while awaiting approval, pay once approved, nothing after. */
  function Actions(status: BillStatus): (actions: seq<BillAction>)
    ensures ApproveBill in actions <==> status == NeedsApproval
    ensures RejectBill in actions <==> status == NeedsApproval
    ensures PayBill in actions <==> status == Approved
    ensures actions == [] <==> status == BillStatus.Paid || status == BillStatus.Rejected
    ensures status == NeedsApproval ==> actions == [ApproveBill, RejectBill]
  {
    (if status == NeedsApproval then [ApproveBill, RejectBill] else [])
    + (if status == Approved then [PayBill] else [])
  }
}

=== FILE: customer_form.dfy ===
/** The customer form (`src/components/Customers/CustomerForm.tsx`): a required name. */
module CustomerForm {
  import opened Options
  import opened Text
  import opened Types
  import opened Validation

  datatype Field = Name

  datatype FormData = FormData(name: string)

  /** `validateForm`: the form is valid exactly when the trimmed name is non-empty. */
  function Validate(form: FormData): (errors: map<Field, ErrorKind>)
    ensures errors == map[] <==> Trim(form.name) != []
    ensures errors != map[] ==> errors == map[Name := Required]
  {
    if Trim(form.name) == [] then
      var errors := map[Name := Required];
      assert Name in errors;
      errors
    else
      map[]
  }

  /** `handleSubmit`: an invalid form never reaches `onSave`; a valid one saves the trimmed name. */
  function Submit(form: FormData, editing: Option<Customer>, now: nat): (r: Submission<Customer, Field>)
    ensures !r.Ignored?
    ensures r.Saved? <==> Trim(form.name) != []
    ensures r.Invalid? ==> r.errors == map[Name := Required]
    ensures r.Saved? ==> r.record.name == Trim(form.name) && r.record.name != [] && IsTrimmed(r.record.name)
    ensures r.Saved? && editing.Some? && editing.value.id != [] ==> r.record.id == editing.value.id
    ensures r.Saved? && (editing.None? || editing.value.id == []) ==> r.record.id == NatToString(now)
  {
    var errors := Validate(form);
    if errors != map[] then
      Invalid(errors)
    else
      var existingId := if editing.Some? then Some(editing.value.id) else None;
      Saved(Customer(KeepOrNewId(existingId, NatToString(now)), Trim(form.name)))
  }
}

=== FILE: customer_list.dfy ===
/** The customer table (`src/components/Customers/CustomerList.tsx`): free-text filter and save routing. */
module CustomerList {
  import opened Options
  import opened Seqs
  import opened Text
  import opened Types
  import Store

  /** The row predicate of `filteredCustomers`: the name contains the term. */
  predicate Matches(customer: Customer, term: string) {
    MatchesIgnoringCase(customer.name, term)
  }

  /** `filteredCustomers`: exactly the matching customers, in table order. */
  function FilterCustomers(customers: seq<Customer>, term: string): (r: seq<Customer>)
    ensures SubsequenceOf(r, customers)
    ensures forall k :: 0 <= k < |r| ==> Matches(r[k], term)
    ensures forall k :: 0 <= k < |customers| && Matches(customers[k], term) ==> customers[k] in r
    ensures forall x :: multiset(r)[x] == if Matches(x, term) then multiset(customers)[x] else 0
  {
    var keep := (c: Customer) => Matches(c, term);
    assert forall x :: multiset(Filter(customers, keep))[x] == if Matches(x, term) then multiset(customers)[x] else 0 by {
      forall x {
        FilterCount(customers, keep, x);
      }
    }
    Filter(customers, keep)
  }

  /** The id is not a search column. */
  lemma IdNeverSearched(customer: Customer, otherId: string, term: string)
    ensures Matches(customer.(id := otherId), term) == Matches(customer, term)
  {
  }

  /** An empty search keeps every customer, in order. */
  lemma EmptySearchKeepsAll(customers: seq<Customer>)
    ensures FilterCustomers(customers, []) == customers
  {
    var p := (c: Customer) => Matches(c, []);
    forall k | 0 <= k < |customers|
      ensures p(customers[k])
    {
      EmptyTermMatchesEverything(customers[k].name);
    }
    FilterKeepsAll(customers, p);
  }

  /** `handleSaveCustomer`: the edit handler while a customer is being edited, the add handler otherwise. */
  function SaveAction(editing: Option<Customer>, customer: Customer): (a: Store.Action)
    ensures (a.AddCustomer? || a.EditCustomer?) && a.customer == customer
    ensures a.EditCustomer? <==> editing.Some?
  {
    if editing.Some? then Store.EditCustomer(customer) else Store.AddCustomer(customer)
  }
}

=== FILE: lookup.dfy ===
/**
 * The foreign-key joins the views perform with `find(e => e.id === key)`.
 * A key of `undefined` never equals a string id, so it finds nothing.
 */
module Lookup {
  import opened Options
  import opened Seqs
  import opened Types

  function CustomerById(customers: seq<Customer>, id: Option<string>): (r: Option<Customer>)
    ensures r.Some? ==> r.value in customers && id == Some(r.value.id)
    ensures r.None? <==> id.None? || forall k :: 0 <= k < |customers| ==> customers[k].id != id.value
  {
    Find(customers, (c: Customer) => Some(c.id) == id)
  }

  function ProjectById(projects: seq<Project>, id: Option<string>): (r: Option<Project>)
    ensures r.Some? ==> r.value in projects && id == Some(r.value.id)
    ensures r.None? <==> id.None? || forall k :: 0 <= k < |projects| ==> projects[k].id != id.value
  {
    Find(projects, (p: Project) => Some(p.id) == id)
  }

  function SupplierById(suppliers: seq<Supplier>, id: string): (r: Option<Supplier>)
    ensures r.Some? ==> r.value in suppliers && r.value.id == id
    ensures r.None? <==> forall k :: 0 <= k < |suppliers| ==> suppliers[k].id != id
  {
    Find(suppliers, (s: Supplier) => s.id == id)
  }

  function PurchaseOrderById(orders: seq<PurchaseOrder>, id: string): (r: Option<PurchaseOrder>)
    ensures r.Some? ==> r.value in orders && r.value.id == id
    ensures r.None? <==> forall k :: 0 <= k < |orders| ==> orders[k].id != id
  {
    Find(orders, (po: PurchaseOrder) => po.id == id)
  }

  /** With duplicate ids the join picks the earliest record. */
  lemma SupplierByIdPicksFirst(suppliers: seq<Supplier>, i: nat)
    requires i < |suppliers|
    requires forall j :: 0 <= j < i ==> suppliers[j].id != suppliers[i].id
    ensures SupplierById(suppliers, suppliers[i].id) == Some(suppliers[i])
  {
    FindReturnsFirst(suppliers, (s: Supplier) => s.id == suppliers[i].id, i);
  }
}

=== FILE: options.dfy ===
/** The optional-value wrapper used for every `field?: T` of the TypeScript records. */
module Options {

  /** `None` stands for an absent (`undefined`) field, `Some(v)` for a present one. */
  datatype Option<+T> = None | Some(value: T) {

    /** The wrapped value, or `default` when absent. */
    function GetOr(default: T): T {
      match this
      case Some(v) => v
      case None => default
    }
  }
}

=== FILE: project_form.dfy ===
/** The project form (`src/components/Projects/ProjectForm.tsx`): the CUP length rule and the saved record. */
module ProjectForm {
  import opened Options
  import opened Text
  import opened Types
  import opened Validation

  /** The only error key `validateForm` can set. */
  datatype Field = CupCode

  /** The bound input values; an unselected customer and an empty CUP code are empty strings. */
  datatype FormData = FormData(customerId: string, cupCode: string)

  const CupLength := 15

  /** `validateForm`: a CUP code is optional, but a non-empty one must be exactly fifteen UTF-16 code units long. */
  function Validate(form: FormData): (errors: map<Field, ErrorKind>)
    ensures errors == map[] <==> form.cupCode == [] || Utf16Length(form.cupCode) == CupLength
    ensures errors != map[] ==> errors == map[CupCode := CupCodeLength]
  {
    if form.cupCode != [] && Utf16Length(form.cupCode) != CupLength then
      var errors := map[CupCode := CupCodeLength];
      assert CupCode in errors;
      errors
    else
      map[]
  }

  /** The customer selection never affects validation. */
  lemma CustomerNeverValidated(a: string, b: string, cup: string)
    ensures Validate(FormData(a, cup)) == Validate(FormData(b, cup))
  {
  }

  /** Fifteen code points are not always fifteen code units: fourteen digits and an emoji are refused. */
  lemma AstralCupRejected(form: FormData, editing: Option<Project>, now: nat)
    requires form.cupCode == "12345678901234" + ['\U{1F600}']
    ensures |form.cupCode| == CupLength
    ensures Validate(form) == map[CupCode := CupCodeLength]
    ensures Submit(form, editing, now).Invalid?
  {
    var digits := "12345678901234";
    assert forall k :: 0 <= k < |digits| ==> digits[k] as int <= 0xFFFF;
    AstralCodePointCountsTwice(digits, '\U{1F600}');
  }

  /** `handleSubmit`: empty inputs become absent fields, the CUP code is stored untrimmed, the id is kept on edit. */
  function Submit(form: FormData, editing: Option<Project>, now: nat): (r: Submission<Project, Field>)
    ensures !r.Ignored?
    ensures r.Saved? <==> form.cupCode == [] || Utf16Length(form.cupCode) == CupLength
    ensures r.Invalid? ==> r.errors == map[CupCode := CupCodeLength]
    ensures r.Saved? ==> r.record.cupCode.None? || Utf16Length(r.record.cupCode.value) == CupLength
    ensures r.Saved? ==> (r.record.cupCode.None? <==> form.cupCode == [])
    ensures r.Saved? && r.record.cupCode.Some? ==> r.record.cupCode.value == form.cupCode
    ensures r.Saved? ==> (r.record.customerId.None? <==> form.customerId == [])
    ensures r.Saved? && r.record.customerId.Some? ==> r.record.customerId.value == form.customerId
    ensures r.Saved? && editing.Some? && editing.value.id != [] ==> r.record.id == editing.value.id
    ensures r.Saved? && (editing.None? || editing.value.id == []) ==> r.record.id == NatToString(now)
  {
    var errors := Validate(form);
    if errors != map[] then
      Invalid(errors)
    else
      var existingId := if editing.Some? then Some(editing.value.id) else None;
      Saved(Project(
        KeepOrNewId(existingId, NatToString(now)),
        if form.customerId == [] then None else Some(form.customerId),
        if form.cupCode == [] then None else Some(form.cupCode)))
  }
}

=== FILE: project_list.dfy ===
/** The project table (`src/components/Projects/ProjectList.tsx`): customer join, free-text filter, save routing. */
module ProjectList {
  import opened Options
  import opened Seqs
  import opened Text
  import opened Types
  import opened Lookup
  import Store

  /** `getCustomerName`: the joined customer's name, or `-` for a missing id, an unknown id or an empty name. */
  function CustomerName(customers: seq<Customer>, customerId: Option<string>): (name: string)
    ensures name != []
    ensures customerId.None? || customerId.value == [] ==> name == "-"
    ensures CustomerById(customers, customerId).None? ==> name == "-"
    ensures customerId.Some? && customerId.value != [] && CustomerById(customers, customerId).Some? ==>
              name == (if CustomerById(customers, customerId).value.name != [] then CustomerById(customers, customerId).value.name else "-")
    ensures name != "-" ==> exists k :: 0 <= k < |customers| && Some(customers[k].id) == customerId && customers[k].name == name
  {
    if customerId.None? || customerId.value == [] then "-"
    else
      var customer := CustomerById(customers, customerId);
      if customer.Some? && customer.value.name != [] then customer.value.name else "-"
  }

  /** The row predicate of `filteredProjects`: id, customer name or CUP code contains the term. */
  predicate Matches(project: Project, term: string, customers: seq<Customer>) {
    || MatchesIgnoringCase(project.id, term)
    || MatchesIgnoringCase(CustomerName(customers, project.customerId), term)
    || (project.cupCode.Some? && project.cupCode.value != [] && MatchesIgnoringCase(project.cupCode.value, term))
  }

  /** `filteredProjects`: the matching projects, in table order. */
  function FilterProjects(projects: seq<Project>, term: string, customers: seq<Customer>): (r: seq<Project>)
    ensures SubsequenceOf(r, projects)
    ensures forall k :: 0 <= k < |r| ==> Matches(r[k], term, customers)
    ensures forall k :: 0 <= k < |projects| && Matches(projects[k], term, customers) ==> projects[k] in r
    ensures forall x :: multiset(r)[x] == if Matches(x, term, customers) then multiset(projects)[x] else 0
  {
    var keep := (p: Project) => Matches(p, term, customers);
    assert forall x :: multiset(Filter(projects, keep))[x] == if Matches(x, term, customers) then multiset(projects)[x] else 0 by {
      forall x {
        FilterCount(projects, keep, x);
      }
    }
    Filter(projects, keep)
  }

  /** An empty search keeps every project, in order. */
  lemma EmptySearchKeepsAll(projects: seq<Project>, customers: seq<Customer>)
    ensures FilterProjects(projects, [], customers) == projects
  {
    var p := (pr: Project) => Matches(pr, [], customers);
    forall k | 0 <= k < |projects|
      ensures p(projects[k])
    {
      EmptyTermMatchesEverything(projects[k].id);
    }
    FilterKeepsAll(projects, p);
  }

  /** A project without a CUP code is found only through its id or customer name. */
  lemma AbsentCupNeverMatches(project: Project, term: string, customers: seq<Customer>)
    requires project.cupCode.None?
    ensures Matches(project, term, customers) <==>
              MatchesIgnoringCase(project.id, term) || MatchesIgnoringCase(CustomerName(customers, project.customerId), term)
  {
  }

  /**
   * Deleting a customer does not touch its projects; they survive the delete, and since
   * the delete removes every customer with that id, the table shows `-` as their customer.
   */
  lemma DeletedCustomerShowsPlaceholder(s: Store.Store, id: string, project: Project)
    requires project in s.projects && project.customerId == Some(id)
    ensures project in Store.Step(s, Store.DeleteCustomer(id)).projects
    ensures CustomerName(Store.Step(s, Store.DeleteCustomer(id)).customers, project.customerId) == "-"
  {
  }

  /** `handleSaveProject`: the edit handler while a project is being edited, the add handler otherwise. */
  function SaveAction(editing: Option<Project>, project: Project): (a: Store.Action)
    ensures (a.AddProject? || a.EditProject?) && a.project == project
    ensures a.EditProject? <==> editing.Some?
  {
    if editing.Some? then Store.EditProject(project) else Store.AddProject(project)
  }
}

=== FILE: purchase_order_details.dfy ===
/**
 * The purchase-order detail dialog (`src/components/PurchaseOrders/PurchaseOrderDetails.tsx`):
 * the joined records, the bills total and the status-gated action buttons.
 */
module PurchaseOrderDetails {
  import opened Options
  import opened Types
  import opened Lookup

  /** The supplier, project and customer the dialog shows next to the order. */
  datatype Related = Related(supplier: Option<Supplier>, project: Option<Project>, customer: Option<Customer>)

  /** The joins at the top of the component: the customer is looked up only through a found project. */
  function RelatedOf(po: PurchaseOrder, suppliers: seq<Supplier>, projects: seq<Project>, customers: seq<Customer>): (r: Related)
    ensures r.supplier == SupplierById(suppliers, po.supplierId)
    ensures r.project == ProjectById(projects, po.projectId)
    ensures r.customer.Some? ==> r.project.Some? && Some(r.customer.value.id) == r.project.value.customerId
    ensures r.project.Some? ==> r.customer == CustomerById(customers, r.project.value.customerId)
    ensures po.projectId.None? ==> r.project.None? && r.customer.None?
  {
    var project := ProjectById(projects, po.projectId);
    Related(
      SupplierById(suppliers, po.supplierId),
      project,
      if project.Some? then CustomerById(customers, project.value.customerId) else None)
  }

  /** A bill's contribution to the total: `bill.amount || 0`. */
  function AmountOf(bill: Bill): int {
    bill.amount.GetOr(0)
  }

  /** The sum of the bills' amounts, absent amounts counting as zero. */
  function SumAmounts(bills: seq<Bill>): int {
    if bills == [] then 0 else AmountOf(bills[0]) + SumAmounts(bills[1..])
  }

  lemma {:induction false} SumAmountsAppend(bills: seq<Bill>, more: seq<Bill>)
    ensures SumAmounts(bills + more) == SumAmounts(bills) + SumAmounts(more)
  {
    if bills == [] {
      assert bills + more == more;
    } else {
      assert (bills + more)[1..] == bills[1..] + more;
      SumAmountsAppend(bills[1..], more);
    }
  }

  /** `getTotalBillsAmount`: `reduce` from 0, left to right; an empty list totals 0. */
  method TotalBillsAmount(bills: seq<Bill>) returns (total: int)
    ensures total == SumAmounts(bills)
    ensures bills == [] ==> total == 0
    ensures (forall k :: 0 <= k < |bills| ==> bills[k].amount.None?) ==> total == 0
  {
    total := 0;
    var i := 0;
    while i < |bills|
      invariant 0 <= i <= |bills|
      invariant total == SumAmounts(bills[..i])
    {
      SumAmountsAppend(bills[..i], [bills[i]]);
      assert bills[..i + 1] == bills[..i] + [bills[i]];
      total := total + AmountOf(bills[i]);
      i := i + 1;
    }
    assert bills[..i] == bills;
    AllAbsentSumsToZero(bills);
  }

  lemma {:induction false} AllAbsentSumsToZero(bills: seq<Bill>)
    ensures (forall k :: 0 <= k < |bills| ==> bills[k].amount.None?) ==> SumAmounts(bills) == 0
  {
    if bills != [] {
      AllAbsentSumsToZero(bills[1..]);
    }
  }

  /** The dialog's buttons. */
  datatype OrderAction = Approve | Reject | Assign | Close

  /** `getActionButtons`: three independent status tests, appended in source order. */
  function ActionButtons(status: PurchaseOrderStatus): (buttons: seq<OrderAction>)
    ensures |buttons| <= 2
    ensures Approve in buttons <==> status == WaitingForApproval
    ensures Reject in buttons <==> status == WaitingForApproval
    ensures Assign in buttons <==> status == InProgress
    ensures Close in buttons <==> status == Assigned || status == PurchaseOrderStatus.Paid
    ensures Approve in buttons ==> Assign !in buttons && Close !in buttons
  {
    (if status == WaitingForApproval then [Approve, Reject] else [])
    + (if status == InProgress then [Assign] else [])
    + (if status == Assigned || status == PurchaseOrderStatus.Paid then [Close] else [])
  }

  /** The exact button row for each of the seven statuses. */
  lemma ButtonsPerStatus()
    ensures ActionButtons(WaitingForApproval) == [Approve, Reject]
    ensures ActionButtons(InProgress) == [Assign]
    ensures ActionButtons(Assigned) == [Close]
    ensures ActionButtons(PurchaseOrderStatus.Paid) == [Close]
    ensures ActionButtons(Draft) == []
    ensures ActionButtons(PurchaseOrderStatus.Rejected) == []
    ensures ActionButtons(Closed) == []
  {
  }
}

=== FILE: purchase_order_form.dfy ===
/**
 * The purchase-order form (`src/components/PurchaseOrders/PurchaseOrderForm.tsx`):
 * id generation, field validation and the record handed to `onSave`.
 */
module PurchaseOrderForm {
  import opened Options
  import opened Text
  import opened Types
  import opened Validation
  import Lookup

  /** The error keys `validateForm` can set. */
  datatype Field = Name | CigCode | SupplierId | SignedFile

  /** The bound input values; an unselected supplier or project is the empty string. */
  datatype FormData = FormData(name: string, cigCode: string, supplierId: string, projectId: string)

  /** The form's own purchase-order shape: what `onSave` receives (it carries no status). */
  datatype Order = Order(
    id: string,
    name: string,
    cigCode: string,
    supplierId: string,
    projectId: Option<string>,
    signedFile: Option<File>)

  const CigLength := 10

  /** The sequence number the form puts in a new id; a backend would supply it. */
  const NextId: nat := 1

  /**
   * `generatePOId`: `ACQ/<year>/<sequence padded to three digits>`, with the sequence fixed at `NextId`.
   * The id is `ACQ/`, then the year as JavaScript renders it (no leading zero, a `-` when negative), then `/001`.
   */
  function GeneratePOId(year: int): (id: string)
    ensures |id| >= 9
    ensures id[..4] == "ACQ/"
    ensures id[|id| - 4..] == "/001"
    ensures year >= 0 ==> ReadsAs(id[4..|id| - 4], year)
    ensures year >= 0 ==> id[4..|id| - 4] == NatToString(year)
    ensures year < 0 ==> id[4] == '-'
    ensures year < 0 ==> id[4..|id| - 4] == "-" + NatToString(-year)
  {
    GeneratedIdFacts(year, FormatId(year, NextId));
    FormatId(year, NextId)
  }

  /** The facts `GeneratePOId` promises, proved about its result. */
  lemma GeneratedIdFacts(year: int, id: string)
    requires id == FormatId(year, NextId)
    ensures |id| >= 9
    ensures id[..4] == "ACQ/"
    ensures id[|id| - 4..] == "/001"
    ensures year >= 0 ==> ReadsAs(id[4..|id| - 4], year)
    ensures year >= 0 ==> id[4..|id| - 4] == NatToString(year)
    ensures year < 0 ==> id[4] == '-'
    ensures year < 0 ==> id[4..|id| - 4] == "-" + NatToString(-year)
  {
    FirstSequenceNumber();
    FormatIdShape(year, NextId);
  }

  /** `ACQ/<year>/<sequence>`, the sequence left-padded with zeros to three digits. */
  function FormatId(year: int, sequence: nat): string {
    "ACQ/" + IntToString(year) + "/" + PadStart(NatToString(sequence), 3, '0')
  }

  /** An id starts with `ACQ/`, reads back as its year, and ends with the padded sequence number below 1000. */
  lemma FormatIdShape(year: int, sequence: nat)
    ensures |FormatId(year, sequence)| >= 9
    ensures FormatId(year, sequence)[..4] == "ACQ/"
    ensures sequence < 1000 ==>
      FormatId(year, sequence)[|FormatId(year, sequence)| - 4..] == "/" + PadStart(NatToString(sequence), 3, '0')
    ensures sequence < 1000 && year >= 0 ==>
      ReadsAs(FormatId(year, sequence)[4..|FormatId(year, sequence)| - 4], year)
    ensures sequence < 1000 ==> FormatId(year, sequence)[4..|FormatId(year, sequence)| - 4] == IntToString(year)
    ensures year < 0 ==> FormatId(year, sequence)[4] == '-'
  {
    var padded := PadStart(NatToString(sequence), 3, '0');
    NatToStringWidth(sequence);
    IdShape(year, padded, FormatId(year, sequence));
  }

  /** Where the year and the sequence sit in an id, for a sequence part of at least three characters. */
  lemma IdShape(year: int, sequence: string, id: string)
    requires |sequence| >= 3
    requires id == "ACQ/" + IntToString(year) + "/" + sequence
    ensures |id| >= 9
    ensures id[..4] == "ACQ/"
    ensures |sequence| == 3 ==> id[|id| - 4..] == "/" + sequence
    ensures |sequence| == 3 && year >= 0 ==> ReadsAs(id[4..|id| - 4], year)
    ensures |sequence| == 3 ==> id[4..|id| - 4] == IntToString(year)
    ensures year < 0 ==> id[4] == '-'
  {
    var year' := IntToString(year);
    IdParts(year', sequence);
    if year >= 0 {
      NatToStringRoundTrip(year);
    }
  }

  /** The sequence number 1 renders as `001`. */
  lemma FirstSequenceNumber()
    ensures PadStart(NatToString(NextId), 3, '0') == "001"
  {
  }

  /** Where the three parts of an id sit. */
  lemma IdParts(year: string, sequence: string)
    requires year != [] && |sequence| >= 3
    ensures |"ACQ/" + year + "/" + sequence| >= 9
    ensures ("ACQ/" + year + "/" + sequence)[..4] == "ACQ/"
    ensures |sequence| == 3 ==> ("ACQ/" + year + "/" + sequence)[|year| + 4..] == "/" + sequence
    ensures |sequence| == 3 ==> ("ACQ/" + year + "/" + sequence)[4..|year| + 4] == year
    ensures ("ACQ/" + year + "/" + sequence)[4] == year[0]
  {
  }

  /** `validateForm`: the error object, keyed by field. */
  function Validate(form: FormData, signedFile: Option<File>, editing: Option<PurchaseOrder>): (errors: map<Field, ErrorKind>)
    ensures Name in errors <==> Trim(form.name) == []
    ensures CigCode in errors <==> Trim(form.cigCode) == [] || Utf16Length(form.cigCode) != CigLength
    ensures CigCode in errors ==> errors[CigCode] == if Trim(form.cigCode) == [] then Required else CigCodeLength
    ensures SupplierId in errors <==> form.supplierId == []
    ensures SignedFile in errors <==> editing.None? && signedFile.None?
    ensures forall f :: f in errors && f != CigCode ==> errors[f] == Required
  {
    var none: map<Field, ErrorKind> := map[];
    var afterName := if Trim(form.name) == [] then none[Name := Required] else none;
    var afterCig :=
      if Trim(form.cigCode) == [] then afterName[CigCode := Required]
      else if Utf16Length(form.cigCode) != CigLength then afterName[CigCode := CigCodeLength]
      else afterName;
    var afterSupplier := if form.supplierId == [] then afterCig[SupplierId := Required] else afterCig;
    if editing.None? && signedFile.None? then afterSupplier[SignedFile := Required] else afterSupplier
  }

  /** The form passes exactly when every required field is filled and the CIG code has ten UTF-16 code units. */
  lemma ValidIff(form: FormData, signedFile: Option<File>, editing: Option<PurchaseOrder>)
    ensures Validate(form, signedFile, editing) == map[] <==>
              && Trim(form.name) != []
              && Trim(form.cigCode) != [] && Utf16Length(form.cigCode) == CigLength
              && form.supplierId != []
              && (editing.Some? || signedFile.Some?)
  {
    var errors := Validate(form, signedFile, editing);
    if Trim(form.name) == [] {
      assert Name in errors;
    } else if Trim(form.cigCode) == [] || Utf16Length(form.cigCode) != CigLength {
      assert CigCode in errors;
    } else if form.supplierId == [] {
      assert SupplierId in errors;
    } else if editing.None? && signedFile.None? {
      assert SignedFile in errors;
    } else {
      assert errors.Keys == {};
    }
  }

  /** `handleSubmit`: `onSave` only without errors, with trimmed text and the id kept on edit. */
  function Submit(form: FormData, signedFile: Option<File>, editing: Option<PurchaseOrder>, year: int): (r: Submission<Order, Field>)
    ensures !r.Ignored?
    ensures r.Invalid? <==> Validate(form, signedFile, editing) != map[]
    ensures r.Invalid? ==> r.errors == Validate(form, signedFile, editing)
    ensures r.Saved? ==> r.record.name != [] && IsTrimmed(r.record.name) && r.record.name == Trim(form.name)
    ensures r.Saved? ==> r.record.cigCode == Trim(form.cigCode) && r.record.cigCode != [] && IsTrimmed(r.record.cigCode)
    ensures r.Saved? ==> Utf16Length(form.cigCode) == CigLength && Utf16Length(r.record.cigCode) <= CigLength
    ensures r.Saved? ==> r.record.supplierId == form.supplierId != []
    ensures r.Saved? ==> (r.record.projectId.None? <==> form.projectId == [])
    ensures r.Saved? && r.record.projectId.Some? ==> r.record.projectId.value == form.projectId
    ensures r.Saved? ==> r.record.signedFile == signedFile && (signedFile.Some? || editing.Some?)
    ensures r.Saved? && editing.Some? && editing.value.id != [] ==> r.record.id == editing.value.id
    ensures r.Saved? && (editing.None? || editing.value.id == []) ==> r.record.id == GeneratePOId(year)
  {
    var errors := Validate(form, signedFile, editing);
    if errors != map[] then
      Invalid(errors)
    else
      ValidIff(form, signedFile, editing);
      TrimUtf16Length(form.cigCode);
      var existingId := if editing.Some? then Some(editing.value.id) else None;
      Saved(Order(
        KeepOrNewId(existingId, GeneratePOId(year)),
        Trim(form.name),
        Trim(form.cigCode),
        form.supplierId,
        if form.projectId == [] then None else Some(form.projectId),
        signedFile))
  }

  /** A signed file is demanded when creating, never when editing. */
  lemma SignedFileOnlyOnCreate(form: FormData, signedFile: Option<File>, po: PurchaseOrder)
    ensures SignedFile !in Validate(form, signedFile, Some(po))
    ensures SignedFile in Validate(form, None, None)
  {
  }

  /**
   * The length rule reads the untrimmed code: a code of ten code units that starts with a blank
   * passes validation, yet the code saved is shorter than ten.
   */
  lemma LengthCheckedBeforeTrim(form: FormData, signedFile: Option<File>, editing: Option<PurchaseOrder>, year: int)
    requires Utf16Length(form.cigCode) == CigLength && IsSpace(form.cigCode[0]) && !AllSpace(form.cigCode)
    ensures CigCode !in Validate(form, signedFile, editing)
    ensures Submit(form, signedFile, editing, year).Saved? ==>
              Utf16Length(Submit(form, signedFile, editing, year).record.cigCode) < CigLength
  {
    TrimDropsLeadingSpace(form.cigCode);
  }

  /** Ten code points are not always ten code units: nine digits and an emoji fail the length rule. */
  lemma AstralCigRejected(form: FormData, signedFile: Option<File>, editing: Option<PurchaseOrder>)
    requires form.cigCode == "123456789" + ['\U{1F600}']
    ensures |form.cigCode| == CigLength
    ensures CigCode in Validate(form, signedFile, editing)
    ensures Validate(form, signedFile, editing)[CigCode] == CigCodeLength
  {
    var digits := "123456789";
    assert forall k :: 0 <= k < |digits| ==> digits[k] as int <= 0xFFFF;
    AstralCodePointCountsTwice(digits, '\U{1F600}');
    assert !IsSpace(form.cigCode[0]);
    assert LeadingSpaces(form.cigCode) == 0;
  }

  /** The project picker's entry: `<project id> - <customer name or 'N/A'>`. */
  function ProjectOption(project: Project, customers: seq<Customer>): (text: string)
    ensures |text| >= |project.id| + 3
    ensures text[..|project.id| + 3] == project.id + " - "
    ensures Lookup.CustomerById(customers, project.customerId).None? ==> text[|project.id| + 3..] == "N/A"
    ensures Lookup.CustomerById(customers, project.customerId).Some? ==>
              text[|project.id| + 3..] == Lookup.CustomerById(customers, project.customerId).value.name
  {
    var customer := Lookup.CustomerById(customers, project.customerId);
    project.id + " - " + (if customer.Some? then customer.value.name else "N/A")
  }
}

=== FILE: purchase_order_list.dfy ===
/**
 * The purchase-order table (`src/components/PurchaseOrders/PurchaseOrderList.tsx`):
 * supplier and project joins, the free-text filter and the save routing.
 */
module PurchaseOrderList {
  import opened Options
  import opened Seqs
  import opened Text
  import opened Types
  import opened Lookup
  import Store

  /** `getSupplierName`: the joined supplier's name, or `-` when it is missing or empty. */
  function SupplierName(suppliers: seq<Supplier>, supplierId: string): (name: string)
    ensures name != []
    ensures SupplierById(suppliers, supplierId).None? ==> name == "-"
    ensures SupplierById(suppliers, supplierId).Some? && SupplierById(suppliers, supplierId).value.name != [] ==>
              name == SupplierById(suppliers, supplierId).value.name
    ensures SupplierById(suppliers, supplierId).Some? && SupplierById(suppliers, supplierId).value.name == [] ==> name == "-"
    ensures name != "-" ==> exists k :: 0 <= k < |suppliers| && suppliers[k].id == supplierId && suppliers[k].name == name
  {
    var supplier := SupplierById(suppliers, supplierId);
    if supplier.Some? && supplier.value.name != [] then supplier.value.name else "-"
  }

  /** `getProjectDisplay`: `<project id> - <customer name or 'N/A'>`, or `-` when there is no project to show. */
  function ProjectDisplay(projects: seq<Project>, customers: seq<Customer>, projectId: Option<string>): (text: string)
    ensures text == "-" <==> projectId.None? || projectId.value == [] || ProjectById(projects, projectId).None?
    ensures text != "-" ==> |text| >= |projectId.value| + 3 && text[..|projectId.value| + 3] == projectId.value + " - "
    ensures text != "-" ==>
              var customer := CustomerById(customers, ProjectById(projects, projectId).value.customerId);
              text[|projectId.value| + 3..] == if customer.Some? && customer.value.name != [] then customer.value.name else "N/A"
  {
    if projectId.None? || projectId.value == [] then "-"
    else
      var project := ProjectById(projects, projectId);
      if project.None? then "-"
      else
        var customer := CustomerById(customers, project.value.customerId);
        project.value.id + " - " + (if customer.Some? && customer.value.name != [] then customer.value.name else "N/A")
  }

  /** The row predicate of `filteredPOs`: the term occurs, ignoring case, in one of five columns. */
  predicate Matches(po: PurchaseOrder, term: string, suppliers: seq<Supplier>, projects: seq<Project>, customers: seq<Customer>) {
    || MatchesIgnoringCase(po.id, term)
    || MatchesIgnoringCase(po.name, term)
    || (po.cigCode.Some? && po.cigCode.value != [] && MatchesIgnoringCase(po.cigCode.value, term))
    || MatchesIgnoringCase(SupplierName(suppliers, po.supplierId), term)
    || MatchesIgnoringCase(ProjectDisplay(projects, customers, po.projectId), term)
  }

  /** `filteredPOs`: the matching orders, in table order. */
  function FilterOrders(orders: seq<PurchaseOrder>, term: string, suppliers: seq<Supplier>, projects: seq<Project>, customers: seq<Customer>): (r: seq<PurchaseOrder>)
    ensures SubsequenceOf(r, orders)
    ensures forall k :: 0 <= k < |r| ==> Matches(r[k], term, suppliers, projects, customers)
    ensures forall k :: 0 <= k < |orders| && Matches(orders[k], term, suppliers, projects, customers) ==> orders[k] in r
    ensures forall x :: multiset(r)[x] == if Matches(x, term, suppliers, projects, customers) then multiset(orders)[x] else 0
  {
    var keep := (po: PurchaseOrder) => Matches(po, term, suppliers, projects, customers);
    assert forall x :: multiset(Filter(orders, keep))[x] == if Matches(x, term, suppliers, projects, customers) then multiset(orders)[x] else 0 by {
      forall x {
        FilterCount(orders, keep, x);
      }
    }
    Filter(orders, keep)
  }

  /** An empty search keeps every order, in order. */
  lemma EmptySearchKeepsAll(orders: seq<PurchaseOrder>, suppliers: seq<Supplier>, projects: seq<Project>, customers: seq<Customer>)
    ensures FilterOrders(orders, [], suppliers, projects, customers) == orders
  {
    var p := (po: PurchaseOrder) => Matches(po, [], suppliers, projects, customers);
    forall k | 0 <= k < |orders|
      ensures p(orders[k])
    {
      EmptyTermMatchesEverything(orders[k].id);
    }
    FilterKeepsAll(orders, p);
  }

  /** An order without a CIG code is found only through its other four columns. */
  lemma AbsentCigNeverMatches(po: PurchaseOrder, term: string, suppliers: seq<Supplier>, projects: seq<Project>, customers: seq<Customer>)
    requires po.cigCode.None?
    ensures Matches(po, term, suppliers, projects, customers) <==>
              || MatchesIgnoringCase(po.id, term)
              || MatchesIgnoringCase(po.name, term)
              || MatchesIgnoringCase(SupplierName(suppliers, po.supplierId), term)
              || MatchesIgnoringCase(ProjectDisplay(projects, customers, po.projectId), term)
  {
  }

  /** `handleSavePO`: the edit handler while an order is being edited, the add handler otherwise. */
  function SaveAction(editing: Option<PurchaseOrder>, po: PurchaseOrder): (a: Store.Action)
    ensures (a.AddPurchaseOrder? || a.EditPurchaseOrder?) && a.order == po
    ensures a.EditPurchaseOrder? <==> editing.Some?
    ensures a.AddPurchaseOrder? <==> editing.None?
  {
    if editing.Some? then Store.EditPurchaseOrder(po) else Store.AddPurchaseOrder(po)
  }
}

=== FILE: seqs.dfy ===
/**
 * The two array primitives the components are built from: `Array.prototype.filter`
 * and `Array.prototype.find`, with the order and membership facts the views rely on.
 */
module Seqs {
  import opened Options

  /** `r` can be obtained from `xs` by deleting elements: same relative order, nothing new. */
  ghost predicate SubsequenceOf<T>(r: seq<T>, xs: seq<T>)
    decreases |xs|
  {
    || r == []
    || (&& xs != []
        && ((r[0] == xs[0] && SubsequenceOf(r[1..], xs[1..])) || SubsequenceOf(r, xs[1..])))
  }

  /** `xs.filter(p)`: the elements satisfying `p`, in their original order. */
  function Filter<T>(xs: seq<T>, p: T -> bool): (r: seq<T>)
    ensures |r| <= |xs|
    ensures forall k :: 0 <= k < |r| ==> r[k] in xs && p(r[k])
    ensures forall k :: 0 <= k < |xs| && p(xs[k]) ==> xs[k] in r
    ensures SubsequenceOf(r, xs)
  {
    if xs == [] then []
    else if p(xs[0]) then [xs[0]] + Filter(xs[1..], p)
    else Filter(xs[1..], p)
  }

  /** `filter` keeps every copy of a satisfying value and no copy of any other. */
  lemma {:induction false} FilterCount<T>(xs: seq<T>, p: T -> bool, x: T)
    ensures multiset(Filter(xs, p))[x] == if p(x) then multiset(xs)[x] else 0
  {
    if xs != [] {
      var rest := xs[1..];
      FilterCount(rest, p, x);
      assert xs == [xs[0]] + rest;
      assert multiset(xs) == multiset{xs[0]} + multiset(rest);
      if p(xs[0]) {
        assert multiset(Filter(xs, p)) == multiset{xs[0]} + multiset(Filter(rest, p));
      } else {
        assert Filter(xs, p) == Filter(rest, p);
      }
    }
  }

  /** Filtering with a predicate every element satisfies gives the input back unchanged. */
  lemma {:induction false} FilterKeepsAll<T>(xs: seq<T>, p: T -> bool)
    requires forall k :: 0 <= k < |xs| ==> p(xs[k])
    ensures Filter(xs, p) == xs
  {
    if xs != [] {
      FilterKeepsAll(xs[1..], p);
      assert [xs[0]] + xs[1..] == xs;
    }
  }

  /** Filtering drops nothing exactly when every element satisfies the predicate. */
  lemma FilterIsIdentityIff<T>(xs: seq<T>, p: T -> bool)
    ensures Filter(xs, p) == xs <==> forall k :: 0 <= k < |xs| ==> p(xs[k])
  {
    if forall k :: 0 <= k < |xs| ==> p(xs[k]) {
      FilterKeepsAll(xs, p);
    } else {
      var k :| 0 <= k < |xs| && !p(xs[k]);
      assert xs[k] !in Filter(xs, p);
    }
  }

  /** Filtering twice with the same predicate is filtering once. */
  lemma FilterIdempotent<T>(xs: seq<T>, p: T -> bool)
    ensures Filter(Filter(xs, p), p) == Filter(xs, p)
  {
    var r := Filter(xs, p);
    FilterKeepsAll(r, p);
  }

  /** Filtering distributes over concatenation. */
  lemma {:induction false} FilterAppend<T>(xs: seq<T>, ys: seq<T>, p: T -> bool)
    ensures Filter(xs + ys, p) == Filter(xs, p) + Filter(ys, p)
  {
    if xs != [] {
      assert (xs + ys)[1..] == xs[1..] + ys;
      FilterAppend(xs[1..], ys, p);
    } else {
      assert xs + ys == ys;
    }
  }

  /** Position of the first element satisfying `p`, if any. */
  function FirstIndex<T>(xs: seq<T>, p: T -> bool): (r: Option<nat>)
    ensures r.Some? ==> r.value < |xs| && p(xs[r.value])
    ensures r.Some? ==> forall j :: 0 <= j < r.value ==> !p(xs[j])
    ensures r.None? ==> forall j :: 0 <= j < |xs| ==> !p(xs[j])
  {
    if xs == [] then None
    else if p(xs[0]) then Some(0)
    else match FirstIndex(xs[1..], p)
      case None => None
      case Some(k) => Some(k + 1)
  }

  /** `xs.find(p)`: the first element satisfying `p`, or `undefined`. */
  function Find<T>(xs: seq<T>, p: T -> bool): (r: Option<T>)
    ensures r.Some? ==> r.value in xs && p(r.value)
    ensures r.None? <==> forall k :: 0 <= k < |xs| ==> !p(xs[k])
  {
    match FirstIndex(xs, p)
    case None => None
    case Some(k) => Some(xs[k])
  }

  /** `find` returns the earliest match: an element that comes first and satisfies `p` is the result. */
  lemma FindReturnsFirst<T>(xs: seq<T>, p: T -> bool, i: nat)
    requires i < |xs| && p(xs[i])
    requires forall j :: 0 <= j < i ==> !p(xs[j])
    ensures Find(xs, p) == Some(xs[i])
  {
  }
}

=== FILE: status_badge.dfy ===
/**
 * The purchase-order badge (`src/components/PurchaseOrders/StatusBadge.tsx`). Its own
 * status union is `draft | sent_for_approval | in_progress | assigned | paid | rejected`,
 * which is not the union of `src/types/index.ts`, so the input is taken as a plain string.
 */
module StatusBadge {
  import opened Badge
  import opened Types

  /** The six strings with a branch of their own. */
  const BadgeStatuses: seq<string> := ["draft", "sent_for_approval", "in_progress", "assigned", "paid", "rejected"]

  /** `getStatusConfig`: a translated label for the six known strings, the raw string in gray otherwise. */
  function StatusConfig(status: string): (c: BadgeConfig)
    ensures c.text.Translated? <==> status in BadgeStatuses
    ensures c.text.Raw? ==> c == Fallback(status)
    ensures c.className in {Gray, Yellow, Green, Blue, Red}
  {
    match status
    case "draft" => BadgeConfig(Translated("draft"), Gray)
    case "sent_for_approval" => BadgeConfig(Translated("sentForApproval"), Yellow)
    case "in_progress" => BadgeConfig(Translated("inProgressByContractsOffice"), Yellow)
    case "assigned" => BadgeConfig(Translated("assigned"), Green)
    case "paid" => BadgeConfig(Translated("paid"), Blue)
    case "rejected" => BadgeConfig(Translated("rejected"), Red)
    case _ => Fallback(status)
  }

  /** Each of the six known strings has its own label key. */
  lemma KnownStatusesHaveDistinctKeys()
    ensures forall i, j :: 0 <= i < j < |BadgeStatuses| ==>
              StatusConfig(BadgeStatuses[i]).text != StatusConfig(BadgeStatuses[j]).text
  {
  }

  /** Label key and colour of each of the six branches. */
  lemma Colours()
    ensures StatusConfig(Draft.Name()) == BadgeConfig(Translated("draft"), Gray)
    ensures StatusConfig("sent_for_approval") == BadgeConfig(Translated("sentForApproval"), Yellow)
    ensures StatusConfig(InProgress.Name()) == BadgeConfig(Translated("inProgressByContractsOffice"), Yellow)
    ensures StatusConfig(Assigned.Name()) == BadgeConfig(Translated("assigned"), Green)
    ensures StatusConfig(PurchaseOrderStatus.Paid.Name()) == BadgeConfig(Translated("paid"), Blue)
    ensures StatusConfig(PurchaseOrderStatus.Rejected.Name()) == BadgeConfig(Translated("rejected"), Red)
  {
  }

  /** Two valid order statuses have no branch: they are shown raw, in gray. */
  lemma WaitingAndClosedFallBack()
    ensures StatusConfig(WaitingForApproval.Name()) == BadgeConfig(Raw("waiting_for_approval"), Gray)
    ensures StatusConfig(Closed.Name()) == BadgeConfig(Raw("closed"), Gray)
  {
  }

  /** The other five statuses of the order union do get a translated label. */
  lemma OtherOrderStatusesTranslated(st: PurchaseOrderStatus)
    requires st != WaitingForApproval && st != Closed
    ensures StatusConfig(st.Name()).text.Translated?
  {
  }

  /** Colours shared between branches: yellow for submitted and in progress, gray for draft and the fallback. */
  lemma SharedColours(other: string)
    requires other !in BadgeStatuses
    ensures StatusConfig("sent_for_approval").className == StatusConfig("in_progress").className == Yellow
    ensures StatusConfig("draft").className == StatusConfig(other).className == Gray
  {
  }
}

=== FILE: store.dfy ===
/**
 * The page-level collections of `src/pages/Index.tsx` and their add / edit /
 * delete handlers. Each handler rebuilds one collection and leaves the others
 * alone; there is no uniqueness check on add and no cascade on delete.
 */
module Store {
  import opened Options
  import opened Seqs
  import opened Types

  /** `[...xs, x]`: the record goes at the end, whatever its id. */
  function Append<T>(xs: seq<T>, x: T): (r: seq<T>)
    ensures |r| == |xs| + 1
    ensures r[..|xs|] == xs
    ensures r[|xs|] == x
  {
    xs + [x]
  }

  /** `xs.map(e => key(e) === key(updated) ? updated : e)`. */
  function ReplaceById<T>(xs: seq<T>, updated: T, key: T -> string): (r: seq<T>)
    ensures |r| == |xs|
    ensures forall k :: 0 <= k < |xs| && key(xs[k]) == key(updated) ==> r[k] == updated
    ensures forall k :: 0 <= k < |xs| && key(xs[k]) != key(updated) ==> r[k] == xs[k]
  {
    if xs == [] then []
    else [if key(xs[0]) == key(updated) then updated else xs[0]] + ReplaceById(xs[1..], updated, key)
  }

  /** The predicate `e => key(e) !== id` the delete handlers filter with. */
  function KeyIsNot<T>(id: string, key: T -> string): T -> bool {
    e => key(e) != id
  }

  /** `xs.filter(e => key(e) !== id)`. */
  function RemoveById<T>(xs: seq<T>, id: string, key: T -> string): (r: seq<T>)
    ensures forall k :: 0 <= k < |r| ==> key(r[k]) != id
    ensures forall k :: 0 <= k < |xs| && key(xs[k]) != id ==> xs[k] in r
    ensures forall k :: 0 <= k < |r| ==> r[k] in xs
    ensures SubsequenceOf(r, xs)
    ensures forall k :: 0 <= k < |xs| ==> multiset(r)[xs[k]] == if key(xs[k]) != id then multiset(xs)[xs[k]] else 0
  {
    var r := Filter(xs, KeyIsNot(id, key));
    assert forall k :: 0 <= k < |xs| ==> multiset(r)[xs[k]] == if key(xs[k]) != id then multiset(xs)[xs[k]] else 0 by {
      forall k | 0 <= k < |xs| {
        FilterCount(xs, KeyIsNot(id, key), xs[k]);
      }
    }
    r
  }

  /** How many records of `xs` carry `id`. */
  function CountId<T>(xs: seq<T>, id: string, key: T -> string): nat {
    if xs == [] then 0 else (if key(xs[0]) == id then 1 else 0) + CountId(xs[1..], id, key)
  }

  lemma {:induction false} CountIdAppend<T>(xs: seq<T>, ys: seq<T>, id: string, key: T -> string)
    ensures CountId(xs + ys, id, key) == CountId(xs, id, key) + CountId(ys, id, key)
  {
    if xs == [] {
      assert xs + ys == ys;
    } else {
      assert (xs + ys)[1..] == xs[1..] + ys;
      CountIdAppend(xs[1..], ys, id, key);
    }
  }

  /** Adding performs no uniqueness check: the new id is there once more than before. */
  lemma AppendAddsOneOccurrence<T>(xs: seq<T>, x: T, key: T -> string)
    ensures CountId(Append(xs, x), key(x), key) == CountId(xs, key(x), key) + 1
  {
    CountIdAppend(xs, [x], key(x), key);
  }

  /** Editing keeps every position's id: the ids of the collection do not change. */
  lemma ReplaceKeepsIds<T>(xs: seq<T>, updated: T, key: T -> string)
    ensures forall k :: 0 <= k < |xs| ==> key(ReplaceById(xs, updated, key)[k]) == key(xs[k])
  {
  }

  /** Editing with an id no record carries changes nothing. */
  lemma ReplaceAbsentIsIdentity<T>(xs: seq<T>, updated: T, key: T -> string)
    requires forall k :: 0 <= k < |xs| ==> key(xs[k]) != key(updated)
    ensures ReplaceById(xs, updated, key) == xs
  {
  }

  /** Editing twice with the same record is editing once. */
  lemma ReplaceIdempotent<T>(xs: seq<T>, updated: T, key: T -> string)
    ensures ReplaceById(ReplaceById(xs, updated, key), updated, key) == ReplaceById(xs, updated, key)
  {
    ReplaceKeepsIds(xs, updated, key);
  }

  /** Deleting an id no record carries changes nothing. */
  lemma RemoveAbsentIsIdentity<T>(xs: seq<T>, id: string, key: T -> string)
    requires forall k :: 0 <= k < |xs| ==> key(xs[k]) != id
    ensures RemoveById(xs, id, key) == xs
  {
    FilterKeepsAll(xs, KeyIsNot(id, key));
  }

  /** Deleting twice is deleting once. */
  lemma RemoveIdempotent<T>(xs: seq<T>, id: string, key: T -> string)
    ensures RemoveById(RemoveById(xs, id, key), id, key) == RemoveById(xs, id, key)
  {
    FilterIdempotent(xs, KeyIsNot(id, key));
  }

  /** Deleting the id of a record just added removes it together with any older record of that id. */
  lemma RemoveAfterAppend<T>(xs: seq<T>, x: T, key: T -> string)
    ensures RemoveById(Append(xs, x), key(x), key) == RemoveById(xs, key(x), key)
  {
    FilterAppend(xs, [x], KeyIsNot(key(x), key));
  }

  function CustomerKey(c: Customer): string { c.id }
  function ProjectKey(p: Project): string { p.id }
  function SupplierKey(s: Supplier): string { s.id }
  function PurchaseOrderKey(po: PurchaseOrder): string { po.id }

  /** The four collections the page holds in its state. */
  datatype Store = Store(
    customers: seq<Customer>,
    projects: seq<Project>,
    suppliers: seq<Supplier>,
    purchaseOrders: seq<PurchaseOrder>)

  /** The twelve handlers the page hands down to the list views. */
  datatype Action =
    | AddCustomer(customer: Customer)
    | EditCustomer(customer: Customer)
    | DeleteCustomer(id: string)
    | AddProject(project: Project)
    | EditProject(project: Project)
    | DeleteProject(id: string)
    | AddSupplier(supplier: Supplier)
    | EditSupplier(supplier: Supplier)
    | DeleteSupplier(id: string)
    | AddPurchaseOrder(order: PurchaseOrder)
    | EditPurchaseOrder(order: PurchaseOrder)
    | DeletePurchaseOrder(id: string)
  {
    predicate OnCustomers() { AddCustomer? || EditCustomer? || DeleteCustomer? }
    predicate OnProjects() { AddProject? || EditProject? || DeleteProject? }
    predicate OnSuppliers() { AddSupplier? || EditSupplier? || DeleteSupplier? }
    predicate OnPurchaseOrders() { AddPurchaseOrder? || EditPurchaseOrder? || DeletePurchaseOrder? }
  }

  /** One handler call: only the collection the handler belongs to changes. */
  function Step(s: Store, a: Action): (r: Store)
    ensures !a.OnCustomers() ==> r.customers == s.customers
    ensures !a.OnProjects() ==> r.projects == s.projects
    ensures !a.OnSuppliers() ==> r.suppliers == s.suppliers
    ensures !a.OnPurchaseOrders() ==> r.purchaseOrders == s.purchaseOrders
    ensures a.DeleteCustomer? ==> forall k :: 0 <= k < |r.customers| ==> r.customers[k].id != a.id
    ensures a.DeleteSupplier? ==> forall k :: 0 <= k < |r.suppliers| ==> r.suppliers[k].id != a.id
    ensures a.DeleteProject? ==> forall k :: 0 <= k < |r.projects| ==> r.projects[k].id != a.id
    ensures a.DeletePurchaseOrder? ==> forall k :: 0 <= k < |r.purchaseOrders| ==> r.purchaseOrders[k].id != a.id
  {
    match a
    case AddCustomer(c) => s.(customers := Append(s.customers, c))
    case EditCustomer(c) => s.(customers := ReplaceById(s.customers, c, CustomerKey))
    case DeleteCustomer(id) => s.(customers := RemoveById(s.customers, id, CustomerKey))
    case AddProject(p) => s.(projects := Append(s.projects, p))
    case EditProject(p) => s.(projects := ReplaceById(s.projects, p, ProjectKey))
    case DeleteProject(id) => s.(projects := RemoveById(s.projects, id, ProjectKey))
    case AddSupplier(sp) => s.(suppliers := Append(s.suppliers, sp))
    case EditSupplier(sp) => s.(suppliers := ReplaceById(s.suppliers, sp, SupplierKey))
    case DeleteSupplier(id) => s.(suppliers := RemoveById(s.suppliers, id, SupplierKey))
    case AddPurchaseOrder(po) => s.(purchaseOrders := Append(s.purchaseOrders, po))
    case EditPurchaseOrder(po) => s.(purchaseOrders := ReplaceById(s.purchaseOrders, po, PurchaseOrderKey))
    case DeletePurchaseOrder(id) => s.(purchaseOrders := RemoveById(s.purchaseOrders, id, PurchaseOrderKey))
  }

  /** Deleting a customer or supplier leaves every project and order that points at it in place. */
  lemma DeleteDoesNotCascade(s: Store, id: string)
    ensures Step(s, DeleteCustomer(id)).projects == s.projects
    ensures Step(s, DeleteCustomer(id)).purchaseOrders == s.purchaseOrders
    ensures Step(s, DeleteSupplier(id)).purchaseOrders == s.purchaseOrders
    ensures Step(s, DeleteSupplier(id)).projects == s.projects
  {
  }

  /** The records the page starts with. */
  const InitialStore := Store(
    [Customer("1", "Azienda Roma S.p.A."), Customer("2", "Impresa Milano S.r.l.")],
    [Project("1", Some("1"), Some("A12B34C56D78E90")), Project("2", Some("2"), None)],
    [Supplier("1", "Fornitore Tech S.r.l.", "12345678901"),
     Supplier("2", "Servizi Informatici S.p.A.", "09876543210")],
    [PurchaseOrder("ACQ/2024/001", "Ordine Software", Some("Z1A2B3C4D5"), "1", Some("1"), None, Draft,
                   None, None, None, None, None, None, None, None, None, None)])

  /** The seed data obeys the code-length rules and every reference in it resolves. */
  lemma InitialStoreIsConsistent()
    ensures forall p :: p in InitialStore.projects && p.cupCode.Some? ==> |p.cupCode.value| == 15
    ensures forall po :: po in InitialStore.purchaseOrders && po.cigCode.Some? ==> |po.cigCode.value| == 10
    ensures forall po :: po in InitialStore.purchaseOrders ==>
              exists k :: 0 <= k < |InitialStore.suppliers| && InitialStore.suppliers[k].id == po.supplierId
  {
    assert InitialStore.suppliers[0].id == "1";
  }
}

=== FILE: supplier_form.dfy ===
/** The supplier form (`src/components/Suppliers/SupplierForm.tsx`): required fields and the read-only guard. */
module SupplierForm {
  import opened Options
  import opened Text
  import opened Types
  import opened Validation

  datatype Field = Name | VatNumber

  datatype FormData = FormData(name: string, vatNumber: string)

  /** `validateForm`: name and VAT number must not be blank; no format is imposed on the VAT number. */
  function Validate(form: FormData): (errors: map<Field, ErrorKind>)
    ensures Name in errors <==> Trim(form.name) == []
    ensures VatNumber in errors <==> Trim(form.vatNumber) == []
    ensures errors == map[] <==> Trim(form.name) != [] && Trim(form.vatNumber) != []
    ensures forall f :: f in errors ==> errors[f] == Required
  {
    (if Trim(form.name) == [] then map[Name := Required] else map[])
    + (if Trim(form.vatNumber) == [] then map[VatNumber := Required] else map[])
  }

  /** `handleSubmit`: ignored when read-only, otherwise saves trimmed values and keeps the id on edit. */
  function Submit(form: FormData, editing: Option<Supplier>, readonly: bool, now: nat): (r: Submission<Supplier, Field>)
    ensures readonly <==> r.Ignored?
    ensures !readonly ==> (r.Saved? <==> Trim(form.name) != [] && Trim(form.vatNumber) != [])
    ensures r.Invalid? ==> r.errors == Validate(form)
    ensures r.Saved? ==> r.record.name == Trim(form.name) && r.record.name != [] && IsTrimmed(r.record.name)
    ensures r.Saved? ==> r.record.vatNumber == Trim(form.vatNumber) && r.record.vatNumber != [] && IsTrimmed(r.record.vatNumber)
    ensures r.Saved? && editing.Some? && editing.value.id != [] ==> r.record.id == editing.value.id
    ensures r.Saved? && (editing.None? || editing.value.id == []) ==> r.record.id == NatToString(now)
  {
    if readonly then
      Ignored
    else
      var errors := Validate(form);
      if errors != map[] then
        Invalid(errors)
      else
        assert Name !in errors && VatNumber !in errors;
        var existingId := if editing.Some? then Some(editing.value.id) else None;
        Saved(Supplier(KeepOrNewId(existingId, NatToString(now)), Trim(form.name), Trim(form.vatNumber)))
  }
}

=== FILE: supplier_list.dfy ===
/** The supplier table (`src/components/Suppliers/SupplierList.tsx`): free-text filter and save routing. */
module SupplierList {
  import opened Options
  import opened Seqs
  import opened Text
  import opened Types
  import Store

  /** The row predicate of `filteredSuppliers`: name or VAT number contains the term. */
  predicate Matches(supplier: Supplier, term: string) {
    MatchesIgnoringCase(supplier.name, term) || MatchesIgnoringCase(supplier.vatNumber, term)
  }

  /** `filteredSuppliers`: exactly the matching suppliers, in table order. */
  function FilterSuppliers(suppliers: seq<Supplier>, term: string): (r: seq<Supplier>)
    ensures SubsequenceOf(r, suppliers)
    ensures forall k :: 0 <= k < |r| ==> Matches(r[k], term)
    ensures forall k :: 0 <= k < |suppliers| && Matches(suppliers[k], term) ==> suppliers[k] in r
    ensures forall x :: multiset(r)[x] == if Matches(x, term) then multiset(suppliers)[x] else 0
  {
    var keep := (s: Supplier) => Matches(s, term);
    assert forall x :: multiset(Filter(suppliers, keep))[x] == if Matches(x, term) then multiset(suppliers)[x] else 0 by {
      forall x {
        FilterCount(suppliers, keep, x);
      }
    }
    Filter(suppliers, keep)
  }

  /** The id is not a search column: two suppliers differing only in id match the same terms. */
  lemma IdNeverSearched(supplier: Supplier, otherId: string, term: string)
    ensures Matches(supplier.(id := otherId), term) == Matches(supplier, term)
  {
  }

  /** An empty search keeps every supplier, in order. */
  lemma EmptySearchKeepsAll(suppliers: seq<Supplier>)
    ensures FilterSuppliers(suppliers, []) == suppliers
  {
    var p := (s: Supplier) => Matches(s, []);
    forall k | 0 <= k < |suppliers|
      ensures p(suppliers[k])
    {
      EmptyTermMatchesEverything(suppliers[k].name);
    }
    FilterKeepsAll(suppliers, p);
  }

  /** `handleSaveSupplier`: the edit handler while a supplier is being edited, the add handler otherwise. */
  function SaveAction(editing: Option<Supplier>, supplier: Supplier): (a: Store.Action)
    ensures (a.AddSupplier? || a.EditSupplier?) && a.supplier == supplier
    ensures a.EditSupplier? <==> editing.Some?
  {
    if editing.Some? then Store.EditSupplier(supplier) else Store.AddSupplier(supplier)
  }
}

=== FILE: text.dfy ===
/**
 * The string primitives the views and forms rely on: `trim`, `toLowerCase`,
 * `includes`, `endsWith`, `padStart`, `.length` and number-to-decimal conversion.
 * Strings are sequences of Unicode scalar values; `.length` counts their UTF-16 code units.
 */
module Text {

  /** The code points ECMAScript classes as WhiteSpace or LineTerminator, i.e. what `trim` strips. */
  predicate IsSpace(c: char) {
    || c == '\t' || c == '\n' || c == '\U{000B}' || c == '\U{000C}' || c == '\r' || c == ' '
    || c == '\U{00A0}' || c == '\U{1680}' || ('\U{2000}' <= c <= '\U{200A}')
    || c == '\U{2028}' || c == '\U{2029}' || c == '\U{202F}' || c == '\U{205F}'
    || c == '\U{3000}' || c == '\U{FEFF}'
  }

  predicate AllSpace(s: string) {
    forall k :: 0 <= k < |s| ==> IsSpace(s[k])
  }

  /** A string that `trim` leaves alone: empty, or starting and ending with a non-space. */
  predicate IsTrimmed(s: string) {
    s == [] || (!IsSpace(s[0]) && !IsSpace(s[|s| - 1]))
  }

  /** Number of whitespace characters at the start of `s`. */
  function LeadingSpaces(s: string): (n: nat)
    ensures n <= |s|
    ensures forall k :: 0 <= k < n ==> IsSpace(s[k])
    ensures n < |s| ==> !IsSpace(s[n])
  {
    if |s| == 0 || !IsSpace(s[0]) then 0 else 1 + LeadingSpaces(s[1..])
  }

  /** Number of whitespace characters at the end of `s`. */
  function TrailingSpaces(s: string): (n: nat)
    ensures n <= |s|
    ensures forall k :: |s| - n <= k < |s| ==> IsSpace(s[k])
    ensures n < |s| ==> !IsSpace(s[|s| - n - 1])
  {
    if |s| == 0 || !IsSpace(s[|s| - 1]) then 0 else 1 + TrailingSpaces(s[..|s| - 1])
  }

  /** `String.prototype.trim`: `s` without its leading and trailing whitespace. */
  function Trim(s: string): (r: string)
    ensures |r| <= |s|
    ensures IsTrimmed(r)
    ensures r == [] <==> AllSpace(s)
  {
    var i := LeadingSpaces(s);
    if i == |s| then
      assert s[..i] == s;
      assert s[0..0] == [];
      []
    else
      var j := |s| - TrailingSpaces(s);
      assert i < j;
      var r := s[i..j];
      assert s[j..] == s[i + |r|..];
      r
  }

  /** What `trim` keeps is one contiguous piece of the input, and all it drops is whitespace. */
  lemma TrimIsInfix(s: string) returns (i: nat)
    ensures i + |Trim(s)| <= |s|
    ensures Trim(s) == s[i..i + |Trim(s)|]
    ensures AllSpace(s[..i]) && AllSpace(s[i + |Trim(s)|..])
  {
    i := LeadingSpaces(s);
    if i < |s| {
      assert s[i + |Trim(s)|..] == s[|s| - TrailingSpaces(s)..];
    }
  }

  /** Trimming removes exactly the surrounding whitespace: a trimmed string is its own trim. */
  lemma TrimOfTrimmed(s: string)
    requires IsTrimmed(s)
    ensures Trim(s) == s
  {
    if s != [] {
      assert LeadingSpaces(s) == 0;
      assert TrailingSpaces(s) == 0;
    }
  }

  lemma TrimIdempotent(s: string)
    ensures Trim(Trim(s)) == Trim(s)
  {
    TrimOfTrimmed(Trim(s));
  }

  /** ASCII case folding; other characters are kept as they are. */
  function LowerChar(c: char): (d: char)
    ensures 'A' <= c <= 'Z' ==> 'a' <= d <= 'z' && d as int - c as int == 32
    ensures !('A' <= c <= 'Z') ==> d == c
  {
    if 'A' <= c <= 'Z' then (c as int + 32) as char else c
  }

  /** `toLowerCase`, restricted to the ASCII letters. */
  function Lower(s: string): (r: string)
    ensures |r| == |s|
    ensures forall k :: 0 <= k < |s| ==> r[k] == LowerChar(s[k])
  {
    seq(|s|, k requires 0 <= k < |s| => LowerChar(s[k]))
  }

  /** `t` occurs in `s` starting at position `i`. */
  ghost predicate OccursAt(s: string, t: string, i: int) {
    0 <= i && i + |t| <= |s| && s[i..i + |t|] == t
  }

  /** `String.prototype.includes`, computed the way a scan does: try every start position in turn. */
  function Includes(s: string, t: string): (b: bool)
    ensures t <= s ==> b
    ensures b ==> |t| <= |s|
    decreases |s|
  {
    if t <= s then true
    else if |s| == 0 then false
    else Includes(s[1..], t)
  }

  /** Occurring at position 0 is being a prefix. */
  lemma OccursAtStartIffPrefix(s: string, t: string)
    ensures OccursAt(s, t, 0) <==> t <= s
  {
  }

  /** Past position 0, occurring in `s` is occurring one position earlier in its tail. */
  lemma OccursAtShift(s: string, t: string, i: int)
    requires s != [] && i > 0
    ensures OccursAt(s, t, i) <==> OccursAt(s[1..], t, i - 1)
  {
    if i + |t| <= |s| {
      assert s[1..][i - 1..i - 1 + |t|] == s[i..i + |t|];
    }
  }

  /** The scan agrees with the definition: `t` is found iff some window of `s` equals `t`. */
  lemma {:induction false} IncludesIffOccurs(s: string, t: string)
    ensures Includes(s, t) <==> exists i :: OccursAt(s, t, i)
    decreases |s|
  {
    OccursAtStartIffPrefix(s, t);
    if t <= s {
      assert OccursAt(s, t, 0);
    } else if |s| == 0 {
      forall i
        ensures !OccursAt(s, t, i)
      {
      }
    } else {
      IncludesIffOccurs(s[1..], t);
      if Includes(s[1..], t) {
        var j :| OccursAt(s[1..], t, j);
        OccursAtShift(s, t, j + 1);
        assert OccursAt(s, t, j + 1);
      } else {
        forall i
          ensures !OccursAt(s, t, i)
        {
          if i > 0 {
            OccursAtShift(s, t, i);
          }
        }
      }
    }
  }

  lemma IncludesEmpty(s: string)
    ensures Includes(s, [])
  {
  }

  /** The search rule every list view applies: `field.toLowerCase().includes(term.toLowerCase())`. */
  predicate MatchesIgnoringCase(field: string, term: string) {
    Includes(Lower(field), Lower(term))
  }

  lemma EmptyTermMatchesEverything(field: string)
    ensures MatchesIgnoringCase(field, [])
  {
    IncludesEmpty(Lower(field));
  }

  /** `String.prototype.endsWith`. */
  predicate EndsWith(s: string, suffix: string) {
    |suffix| <= |s| && s[|s| - |suffix|..] == suffix
  }

  /** `padStart(width, c)` with a one-character pad: `s` prefixed by copies of `c` up to `width`. */
  function PadStart(s: string, width: nat, c: char): (r: string)
    ensures |r| == if |s| >= width then |s| else width
    ensures r[|r| - |s|..] == s
    ensures forall k :: 0 <= k < |r| - |s| ==> r[k] == c
  {
    if |s| >= width then s else seq(width - |s|, _ => c) + s
  }

  predicate IsDigit(c: char) {
    '0' <= c <= '9'
  }

  predicate AllDigits(s: string) {
    forall k :: 0 <= k < |s| ==> IsDigit(s[k])
  }

  function DigitChar(d: nat): (c: char)
    requires d < 10
    ensures IsDigit(c) && c as int - '0' as int == d
  {
    ('0' as int + d) as char
  }

  /** The value of a string of decimal digits, most significant first. */
  function DigitsValue(s: string): nat
    requires AllDigits(s)
  {
    if s == [] then 0 else DigitsValue(s[..|s| - 1]) * 10 + (s[|s| - 1] as int - '0' as int)
  }

  /** `s` is a run of decimal digits whose value is `n`. */
  predicate ReadsAs(s: string, n: nat) {
    AllDigits(s) && DigitsValue(s) == n
  }

  /** The decimal rendering JavaScript gives a non-negative integer: no sign, no leading zero. */
  function NatToString(n: nat): (r: string)
    ensures |r| >= 1
    ensures AllDigits(r)
    ensures |r| > 1 ==> r[0] != '0'
  {
    if n < 10 then [DigitChar(n)] else NatToString(n / 10) + [DigitChar(n % 10)]
  }

  /** A number below 10, 100 or 1000 renders in at most one, two or three digits. */
  lemma {:induction false} NatToStringWidth(n: nat)
    ensures n < 10 ==> |NatToString(n)| == 1
    ensures n < 100 ==> |NatToString(n)| <= 2
    ensures n < 1000 ==> |NatToString(n)| <= 3
  {
    if n >= 10 {
      NatToStringWidth(n / 10);
    }
  }

  /** Reading back the rendered digits gives the number again. */
  lemma {:induction false} NatToStringRoundTrip(n: nat)
    ensures DigitsValue(NatToString(n)) == n
  {
    if n >= 10 {
      var r := NatToString(n);
      assert r[..|r| - 1] == NatToString(n / 10);
      NatToStringRoundTrip(n / 10);
    }
  }

  /** Template-literal rendering of an integer: a leading `-` for negatives. */
  function IntToString(n: int): (r: string)
    ensures n >= 0 ==> r == NatToString(n)
    ensures n < 0 ==> r == "-" + NatToString(-n)
  {
    if n < 0 then "-" + NatToString(-n) else NatToString(n)
  }

  /** UTF-16 code units a code point takes: two for a code point above U+FFFF (a surrogate pair), one otherwise. */
  function Utf16Units(c: char): (n: nat)
    ensures 1 <= n <= 2
    ensures n == 2 <==> c as int > 0xFFFF
  {
    if c as int > 0xFFFF then 2 else 1
  }

  /** JavaScript's `.length`: the number of UTF-16 code units, not of code points. */
  function Utf16Length(s: string): (n: nat)
    ensures |s| <= n <= 2 * |s|
  {
    if s == [] then 0 else Utf16Units(s[0]) + Utf16Length(s[1..])
  }

  /** `.length` agrees with the number of code points exactly when every code point fits in one code unit. */
  lemma {:induction false} Utf16LengthIsCodePointsIff(s: string)
    ensures Utf16Length(s) == |s| <==> forall k :: 0 <= k < |s| ==> s[k] as int <= 0xFFFF
  {
    if s != [] {
      Utf16LengthIsCodePointsIff(s[1..]);
      assert forall k :: 1 <= k < |s| ==> s[k] == s[1..][k - 1];
    }
  }

  /** `.length` adds up over concatenation. */
  lemma {:induction false} Utf16LengthAppend(a: string, b: string)
    ensures Utf16Length(a + b) == Utf16Length(a) + Utf16Length(b)
  {
    if a == [] {
      assert a + b == b;
    } else {
      assert (a + b)[0] == a[0];
      assert (a + b)[1..] == a[1..] + b;
      Utf16LengthAppend(a[1..], b);
    }
  }

  /** Cutting a string in two splits its `.length` between the halves. */
  lemma {:induction false} Utf16LengthSplit(s: string, i: nat)
    requires i <= |s|
    ensures Utf16Length(s) == Utf16Length(s[..i]) + Utf16Length(s[i..])
  {
    if i == 0 {
      assert s[..i] == [] && s[i..] == s;
    } else {
      Utf16LengthSplit(s[1..], i - 1);
      assert s[1..][..i - 1] == s[..i][1..];
      assert s[1..][i - 1..] == s[i..];
    }
  }

  /** Slicing a prefix is slicing the string. */
  lemma SlicesOfPrefix(s: string, i: nat, j: nat)
    requires i <= j <= |s|
    ensures s[..j][..i] == s[..i] && s[..j][i..] == s[i..j]
  {
  }

  /** A piece of a string is never longer, in code units, than the string. */
  lemma Utf16LengthOfInfix(s: string, i: nat, j: nat)
    requires i <= j <= |s|
    ensures Utf16Length(s[i..j]) + Utf16Length(s[..i]) <= Utf16Length(s)
  {
    var prefix := s[..j];
    Utf16LengthSplit(s, j);
    Utf16LengthSplit(prefix, i);
    SlicesOfPrefix(s, i, j);
  }

  /** Trimming never lengthens a string in code units either. */
  lemma TrimUtf16Length(s: string)
    ensures Utf16Length(Trim(s)) <= Utf16Length(s)
  {
    var i := LeadingSpaces(s);
    if i < |s| {
      var j := |s| - TrailingSpaces(s);
      assert Trim(s) == s[i..j];
      Utf16LengthOfInfix(s, i, j);
    }
  }

  /** A string that starts with whitespace but is not all whitespace loses code units to trimming. */
  lemma TrimDropsLeadingSpace(s: string)
    requires s != [] && IsSpace(s[0]) && !AllSpace(s)
    ensures Utf16Length(Trim(s)) < Utf16Length(s)
  {
    var i := LeadingSpaces(s);
    var j := |s| - TrailingSpaces(s);
    assert Trim(s) == s[i..j];
    Utf16LengthOfInfix(s, i, j);
    assert Utf16Length(s[..i]) >= |s[..i]| == i >= 1;
  }

  /**
   * A code point outside the Basic Multilingual Plane (an emoji, say) counts twice: appended
   * to a string of ordinary code points it adds one code point but two code units.
   */
  lemma AstralCodePointCountsTwice(s: string, c: char)
    requires forall k :: 0 <= k < |s| ==> s[k] as int <= 0xFFFF
    requires c as int > 0xFFFF
    ensures |s + [c]| == |s| + 1
    ensures Utf16Length(s + [c]) == |s| + 2
  {
    Utf16LengthIsCodePointsIff(s);
    Utf16LengthAppend(s, [c]);
    assert [c][1..] == [];
  }
}

=== FILE: types.dfy ===
/**
 * The entity records of the back office (`src/types/index.ts`) and their
 * status enumerations, each with the exact string the TypeScript union uses.
 */
module Types {
  import opened Options

  /** A `Date`, as milliseconds since the epoch. */
  type Timestamp = int

  /** A browser `File` reference: only its name and MIME type are ever inspected. */
  datatype File = File(name: string, mimeType: string)

  datatype Customer = Customer(id: string, name: string)

  datatype Project = Project(id: string, customerId: Option<string>, cupCode: Option<string>)

  datatype Supplier = Supplier(id: string, name: string, vatNumber: string)

  datatype PurchaseOrderStatus =
    | Draft
    | WaitingForApproval
    | InProgress
    | Assigned
    | Paid
    | Rejected
    | Closed
  {
    /** The string literal of the TypeScript union. */
    function Name(): string {
      match this
      case Draft => "draft"
      case WaitingForApproval => "waiting_for_approval"
      case InProgress => "in_progress"
      case Assigned => "assigned"
      case Paid => "paid"
      case Rejected => "rejected"
      case Closed => "closed"
    }
  }

  const AllPurchaseOrderStatuses: seq<PurchaseOrderStatus> :=
    [Draft, WaitingForApproval, InProgress, Assigned, PurchaseOrderStatus.Paid, PurchaseOrderStatus.Rejected, Closed]

  /** The purchase-order status union has exactly seven members, each with its own string. */
  lemma PurchaseOrderStatusEnumeration()
    ensures |AllPurchaseOrderStatuses| == 7
    ensures forall st: PurchaseOrderStatus :: st in AllPurchaseOrderStatuses
    ensures forall i, j :: 0 <= i < j < 7 ==> AllPurchaseOrderStatuses[i].Name() != AllPurchaseOrderStatuses[j].Name()
    ensures WaitingForApproval.Name() == "waiting_for_approval" && Closed.Name() == "closed"
  {
    forall st: PurchaseOrderStatus
      ensures st in AllPurchaseOrderStatuses
    {
      match st
      case Draft => assert AllPurchaseOrderStatuses[0] == st;
      case WaitingForApproval => assert AllPurchaseOrderStatuses[1] == st;
      case InProgress => assert AllPurchaseOrderStatuses[2] == st;
      case Assigned => assert AllPurchaseOrderStatuses[3] == st;
      case Paid => assert AllPurchaseOrderStatuses[4] == st;
      case Rejected => assert AllPurchaseOrderStatuses[5] == st;
      case Closed => assert AllPurchaseOrderStatuses[6] == st;
    }
  }

  /** A purchase order: `supplierId` and `status` are mandatory, everything else optional. */
  datatype PurchaseOrder = PurchaseOrder(
    id: string,
    name: string,
    cigCode: Option<string>,
    supplierId: string,
    projectId: Option<string>,
    signedFile: Option<File>,
    status: PurchaseOrderStatus,
    contractsOfficeLetter: Option<File>,
    explanation: Option<string>,
    createdBy: Option<string>,
    approvedBy: Option<string>,
    approvedDate: Option<Timestamp>,
    rejectedBy: Option<string>,
    rejectedDate: Option<Timestamp>,
    assignedDate: Option<Timestamp>,
    closedDate: Option<Timestamp>,
    createdDate: Option<Timestamp>)

  datatype BillStatus = NeedsApproval | Approved | Paid | Rejected
  {
    function Name(): string {
      match this
      case NeedsApproval => "needs_approval"
      case Approved => "approved"
      case Paid => "paid"
      case Rejected => "rejected"
    }
  }

  const AllBillStatuses: seq<BillStatus> :=
    [BillStatus.NeedsApproval, BillStatus.Approved, BillStatus.Paid, BillStatus.Rejected]

  /** The bill status union has exactly four members, each with its own string. */
  lemma BillStatusEnumeration()
    ensures |AllBillStatuses| == 4
    ensures forall st: BillStatus :: st in AllBillStatuses
    ensures forall i, j :: 0 <= i < j < 4 ==> AllBillStatuses[i].Name() != AllBillStatuses[j].Name()
  {
    forall st: BillStatus
      ensures st in AllBillStatuses
    {
      match st
      case NeedsApproval => assert AllBillStatuses[0] == st;
      case Approved => assert AllBillStatuses[1] == st;
      case Paid => assert AllBillStatuses[2] == st;
      case Rejected => assert AllBillStatuses[3] == st;
    }
  }

  /** An imported invoice: tied to exactly one purchase order, always dated at upload. */
  datatype Bill = Bill(
    id: string,
    purchaseOrderId: string,
    fileName: string,
    xmlFile: File,
    amount: Option<int>,
    billNumber: Option<string>,
    status: BillStatus,
    uploadDate: Timestamp,
    approvalDate: Option<Timestamp>,
    paymentDate: Option<Timestamp>,
    approvedBy: Option<string>,
    paidBy: Option<string>,
    authorizedPaymentFile: Option<File>)

  datatype TimelineEventKind =
    | Created
    | Submitted
    | EventApproved
    | EventRejected
    | EventAssigned
    | EventClosed
    | BillUploaded
    | BillApproved
    | BillPaid
  {
    function Name(): string {
      match this
      case Created => "created"
      case Submitted => "submitted"
      case EventApproved => "approved"
      case EventRejected => "rejected"
      case EventAssigned => "assigned"
      case EventClosed => "closed"
      case BillUploaded => "bill_uploaded"
      case BillApproved => "bill_approved"
      case BillPaid => "bill_paid"
    }
  }

  const AllTimelineEventKinds: seq<TimelineEventKind> :=
    [Created, Submitted, EventApproved, EventRejected, EventAssigned, EventClosed,
     BillUploaded, BillApproved, BillPaid]

  /** The timeline event kind union has exactly nine members, each with its own string. */
  lemma TimelineEventKindEnumeration()
    ensures |AllTimelineEventKinds| == 9
    ensures forall k: TimelineEventKind :: k in AllTimelineEventKinds
    ensures forall i, j :: 0 <= i < j < 9 ==> AllTimelineEventKinds[i].Name() != AllTimelineEventKinds[j].Name()
  {
    forall k: TimelineEventKind
      ensures k in AllTimelineEventKinds
    {
      match k
      case Created => assert AllTimelineEventKinds[0] == k;
      case Submitted => assert AllTimelineEventKinds[1] == k;
      case EventApproved => assert AllTimelineEventKinds[2] == k;
      case EventRejected => assert AllTimelineEventKinds[3] == k;
      case EventAssigned => assert AllTimelineEventKinds[4] == k;
      case EventClosed => assert AllTimelineEventKinds[5] == k;
      case BillUploaded => assert AllTimelineEventKinds[6] == k;
      case BillApproved => assert AllTimelineEventKinds[7] == k;
      case BillPaid => assert AllTimelineEventKinds[8] == k;
    }
  }

  /** A timeline entry: always dated, the acting user optional. */
  datatype TimelineEvent = TimelineEvent(
    id: string,
    kind: TimelineEventKind,
    description: string,
    date: Timestamp,
    user: Option<string>)
}

=== FILE: validation.dfy ===
/** What the four entity forms share: error keys, the outcome of a submit, and id reuse on edit. */
module Validation {
  import opened Options

  /** The translation keys a field error can carry. */
  datatype ErrorKind = Required | CigCodeLength | CupCodeLength
  {
    function Key(): string {
      match this
      case Required => "required"
      case CigCodeLength => "cigCodeLength"
      case CupCodeLength => "cupCodeLength"
    }
  }

  /**
   * The outcome of `handleSubmit`: nothing happens (`Ignored`), the errors object is
   * set and `onSave` is not called (`Invalid`), or `onSave` receives `record` (`Saved`).
   */
  datatype Submission<R, F> = Ignored | Invalid(errors: map<F, ErrorKind>) | Saved(record: R)

  /** `existing?.id || generated`: an edited record keeps its id unless that id is empty. */
  function KeepOrNewId(existing: Option<string>, generated: string): (id: string)
    ensures existing.Some? && existing.value != [] ==> id == existing.value
    ensures existing.None? || existing.value == [] ==> id == generated
  {
    if existing.Some? && existing.value != [] then existing.value else generated
  }
}
